=== FILE: README.md ===
# MediaStudio catalog core, modelled in Dafny

MediaStudio is an iOS app that records audio and video, keeps a catalog of
recordings in a Realm store, and shows them in several lists: the
recordings library (with search, sort, batch delete, rename and merge), the
trash, a general library, and a video list. This project models the logic
under those screens and proves what it promises:

- the catalog store: a table keyed by the record id, with upsert `save`,
  quiet `delete` of an absent id, and `fetchAll` returning every record
  once, newest first;
- the conversion between the domain record and the persisted object, with
  the media type stored as its raw string;
- the list view-models: their filters and orders, their reload after every
  change, and the selection list whose order is the order of a merge;
- the recorder's idle/recording/error state machine, and the record saved
  for a finished recording;
- the player's clamped seek and `mm:ss` text;
- the transcript's case-insensitive, non-overlapping highlight loop;
- the merge's time cursor, where clips are laid end to end;
- the video store's extension filter, naming and listing.

Foreign services are replaced by state or inputs:

- Realm is a class holding a `map` from id to object. Its `opens` flag says
  whether the store can be opened.
- The repository methods whose bodies are not part of this model
  (`moveToTrash`, `restoreFromTrash`, `rename`, `deletePermanently`,
  `cleanupOldTrashItems`, `saveAsNewItem`) are one uninterpreted function
  from request and table to new table and error. Each call is recorded in
  a `log`. The only thing assumed of them is that every object stays under
  its own id, which Realm's primary key enforces.
- `FileManager` is a set of existing file locations.
- AVFoundation is replaced by its answers: tracks, durations, setup and
  export errors, and the permission.
- The clock, UUIDs and formatted dates are parameters.

Each asynchronous `Task` runs to completion where it starts. The reload it
ends with is a call that follows it directly.

The shown `MediaItem` struct and `MediaItemObject` class have no
`isDeleted`/`deletedDate` fields. The recorder and the trash list use both,
so the model's record and object carry them.

Files: `wrappers.dfy` (Option, Result), `seqs.dfy` (filter, map, insertion
sort, first index, remove-at), `text.dfy` (ASCII lowercasing, substring
search, name order), `media_item.dfy`, `media_item_object.dfy`,
`media_repository.dfy`, `file_system.dfy`, `audio_helper.dfy`,
`recorder_library.dfy`, `selection_list.dfy`, `trash_view_model.dfy`,
`library_view_model.dfy`, `recorder_view_model.dfy`,
`player_view_model.dfy`, `transcript_search.dfy`, `video_repository.dfy`,
`video_list_view_model.dfy`.

## Model

| member | source | states |
|---|---|---|
| MediaItems.MediaTypeFromRaw | MediaStudio/Data/Model/MediaItem.swift:13-16 | exactly "audio" and "video" decode, each to the type whose raw value it is |
| MediaItems.RawValueDecodes | MediaStudio/Data/Model/MediaItem.swift:13-16 | decoding a type's raw value gives that type back |
| MediaItems.RawValuesDistinct | MediaStudio/Data/Model/MediaItem.swift:13-16 | the two cases have different raw values |
| MediaItems.FullFileURL | MediaStudio/Data/Model/MediaItem.swift:29-32 | present exactly when a documents root exists; then the root with the relative path as last component |
| MediaItems.AppendingPathComponent | MediaStudio/Data/Model/MediaItem.swift:31 | the joined location's last component is the appended one and its parent is the original |
| MediaItems.PathExtension | MediaStudio/Data/Repository/VideoRepository.swift:59 | the extension holds no '.' and is no longer than the name |
| MediaItems.PathExtensionOf | MediaStudio/Data/Repository/VideoRepository.swift:59 | the extension of `stem.ext` is `ext` whenever `ext` holds no '.' |
| MediaItems.NewestFirstIsTotalPreorder | MediaStudio/Data/Repository/MediaRepository.swift:42-43 | "newest first" on `createdAt` is a total preorder, so sorting by it is well defined |
| MediaItemObjects.ToDomain | MediaStudio/Data/Model/MediaItemObject.swift:35-45 | every field is copied; the type is video exactly when the type string is "video", so any other string gives audio |
| MediaItemObjects.FromDomain | MediaStudio/Data/Model/MediaItemObject.swift:23-32 | the type string is the type's raw value, and converting back gives the record unchanged |
| MediaItemObjects.ObjectRoundTrip | MediaStudio/Data/Model/MediaItemObject.swift:27-39 | an object survives the trip to the domain and back exactly when its type string is a raw value |
| MediaItemObjects.PrimaryKeyUnique | MediaStudio/Data/Model/MediaItemObject.swift:15 | in a table keyed by id, two different keys hold objects with different ids |
| MediaRepositories.CatalogIdsUnique | MediaStudio/Data/Model/MediaItemObject.swift:15 | no two records of the catalog share an id |
| MediaRepositories.Upsert | MediaStudio/Data/Repository/MediaRepository.swift:60-62 | the item's id holds the item, whether or not it was there before; every other id keeps its object; the primary key is kept |
| MediaRepositories.Remove | MediaStudio/Data/Repository/MediaRepository.swift:72-74 | the id is gone; an absent id leaves the table equal; every other id keeps its object |
| MediaRepositories.CatalogAfterUpsert | MediaStudio/Data/Repository/MediaRepository.swift:55-65 | after a save the catalog is the old one with the item in place of any record of its id |
| MediaRepositories.CatalogAfterRemove | MediaStudio/Data/Repository/MediaRepository.swift:67-77 | after a delete the catalog has lost exactly the record of that id |
| MediaRepositories.MediaRepository.constructor | MediaStudio/Data/Repository/MediaRepository.swift:20-27 | an empty store with an empty call log |
| MediaRepositories.MediaRepository.FetchAll | MediaStudio/Data/Repository/MediaRepository.swift:37-52 | every stored record exactly once, ordered by `createdAt` descending; the empty list when the store cannot be opened |
| MediaRepositories.MediaRepository.Save | MediaStudio/Data/Repository/MediaRepository.swift:55-65 | fails exactly when the store cannot be opened; otherwise the table is the upsert of the item |
| MediaRepositories.MediaRepository.Delete | MediaStudio/Data/Repository/MediaRepository.swift:67-77 | fails exactly when the store cannot be opened; an absent id changes nothing; otherwise exactly that record is removed |
| MediaRepositories.MediaRepository.Perform | MediaStudio/Feature/Recorder/Trash/TrashViewModel.swift:21 | a call to a repository method not modelled here: the call is logged, the table and the error are that method's outcome, and the primary key is kept |
| MediaRepositories.FilteredListing | MediaStudio/Feature/Recorder/Library/LibraryViewModel.swift:30-35 | filtering the fetched records and sorting newest first lists exactly the catalog records that pass the filter, newest first |
| MediaRepositories.SortedListing | MediaStudio/Feature/Library/LibraryViewModel.swift:29-30 | sorting the fetched records newest first lists the whole catalog, newest first |
| Seqs.Filter | MediaStudio/Feature/Recorder/Library/LibraryViewModel.swift:32-34 | keeps exactly the elements that pass, in their order |
| Seqs.FilterCount | MediaStudio/Feature/Recorder/Library/LibraryViewModel.swift:32-34 | each passing element is kept as often as it occurs, and no other element is kept |
| Seqs.Sort | MediaStudio/Feature/Recorder/Library/LibraryViewModel.swift:35 | a permutation of the input, ordered by the given total preorder |
| Seqs.FirstIndex | MediaStudio/Feature/Recorder/Library/LibraryViewModel.swift:129 | the first index whose element passes, or none exactly when no element passes |
| Seqs.RemoveAt | MediaStudio/Feature/Camera/Library/VideoListViewModel.swift:35 | drops exactly the element at the index; the others keep their order |
| Text.Lower | MediaStudio/Feature/Transcript/TranscriptViewController.swift:154-155 | same length, each letter lowercased |
| Text.LowerIdempotent | MediaStudio/Feature/Transcript/TranscriptViewController.swift:154-155 | lowercasing twice is lowercasing once |
| Text.FindFrom | MediaStudio/Feature/Transcript/TranscriptViewController.swift:159 | the leftmost occurrence at or after the start, or none exactly when there is none |
| Text.ContainsMeansOccurs | MediaStudio/Feature/Recorder/Library/LibraryViewModel.swift:52 | the substring test holds exactly when the pattern occurs somewhere |
| Text.NameLeTotal | MediaStudio/Feature/Recorder/Library/LibraryViewModel.swift:74-78 | any two names are comparable |
| Text.NameLeTransitive | MediaStudio/Feature/Recorder/Library/LibraryViewModel.swift:74-78 | the name order is transitive |
| Text.NameLeAntisymmetric | MediaStudio/Feature/Recorder/Library/LibraryViewModel.swift:74-78 | names that sort both ways are equal |
| RecorderLibrary.InLibraryStoredAs | MediaStudio/Feature/Recorder/Library/LibraryViewModel.swift:32-34 | a stored record is listed exactly when it is not in the trash and its type string is not "video", because an unknown type string reads back as audio |
| RecorderLibrary.MatchesQueryMeans | MediaStudio/Feature/Recorder/Library/LibraryViewModel.swift:52 | a name matches exactly when the lowercased query occurs in the lowercased name, and the query's letter case does not change the answer |
| RecorderLibrary.OrderIsTotalPreorder | MediaStudio/Feature/Recorder/Library/LibraryViewModel.swift:66-79 | each of the four sort orders is a total preorder |
| RecorderLibrary.TrashTargetsExactly | MediaStudio/Feature/Recorder/Library/LibraryViewModel.swift:127-132 | an id is sent to the trash exactly when some list entry has it and the current items list it |
| RecorderLibrary.LibraryViewModel.constructor | MediaStudio/Feature/Recorder/Library/LibraryViewModel.swift:16-17 | both lists start empty |
| RecorderLibrary.LibraryViewModel.LoadDataAsWritten | MediaStudio/Feature/Recorder/Library/LibraryViewModel.swift:28-43 | items are exactly the catalog's audio records not in the trash, newest first; `allItems` is not assigned |
| RecorderLibrary.LibraryViewModel.LoadData | MediaStudio/Feature/Recorder/Library/LibraryViewModel.swift:16-39 | as above, and the search source `allItems` is the loaded list (corrected, see Findings) |
| RecorderLibrary.LibraryViewModel.Search | MediaStudio/Feature/Recorder/Library/LibraryViewModel.swift:46-57 | an empty query shows `allItems`; otherwise the entries of `allItems` whose name contains the query ignoring case, in order |
| RecorderLibrary.LibraryViewModel.Sort | MediaStudio/Feature/Recorder/Library/LibraryViewModel.swift:66-81 | the same entries, ordered by date descending or ascending, or by name ascending or descending |
| RecorderLibrary.LibraryViewModel.TrashAndReload | MediaStudio/Feature/Recorder/Library/LibraryViewModel.swift:119-123 | one trash request, its error ignored, then a reload |
| RecorderLibrary.LibraryViewModel.DeleteItem | MediaStudio/Feature/Recorder/Library/LibraryViewModel.swift:117-124 | the shown record at the index goes to the trash, errors ignored, then a reload |
| RecorderLibrary.LibraryViewModel.DeleteAllItem | MediaStudio/Feature/Recorder/Library/LibraryViewModel.swift:127-133 | trash requests for exactly the list entries the current items hold, in list order, each followed by a reload; without any, nothing changes |
| RecorderLibrary.LibraryViewModel.LookUpTargets | MediaStudio/Feature/Recorder/Library/LibraryViewModel.swift:128-129 | the ids of the list entries the current items hold, in list order |
| RecorderLibrary.LibraryViewModel.TrashEach | MediaStudio/Feature/Recorder/Library/LibraryViewModel.swift:130 | one trash request per id, in order, each followed by a reload |
| RecorderLibrary.LibraryViewModel.RenameItem | MediaStudio/Feature/Recorder/Library/LibraryViewModel.swift:136-146 | one rename request for the shown record; a reload exactly when it did not fail |
| RecorderLibrary.LibraryViewModel.MergeItems | MediaStudio/Feature/Recorder/Library/LibraryViewModel.swift:149-172 | files merged in selection order; success is reported only after the new record is saved, and no completion when the helper returns nil. A thrown merge, duration or save error is reported with its text. The store is unchanged unless a save was attempted; otherwise it holds the save's outcome. After a failed save the lists are unchanged |
| RecorderLibrary.SearchAfterLoadShowsNothing | MediaStudio/Feature/Recorder/Library/LibraryViewModel.swift:28-57 | with the load as written, one loaded recording and an empty search shows nothing |
| RecorderLibrary.SearchAfterCorrectedLoadShowsAll | MediaStudio/Feature/Recorder/Library/LibraryViewModel.swift:46-48 | with the corrected load, an empty search shows the loaded recordings |
| RecorderLibraryScreen.LibraryViewController.constructor | MediaStudio/Feature/Recorder/Library/LibraryViewController.swift:24 | not in select mode, with an empty selection |
| RecorderLibraryScreen.LibraryViewController.DidTapSelectButton | MediaStudio/Feature/Recorder/Library/LibraryViewController.swift:108-124 | select mode flips and the selection is emptied |
| RecorderLibraryScreen.LibraryViewController.DidSelectRow | MediaStudio/Feature/Recorder/Library/LibraryViewController.swift:272-288 | in select mode the row's record is appended to the selection; otherwise it is opened in the player |
| RecorderLibraryScreen.LibraryViewController.DidDeselectRow | MediaStudio/Feature/Recorder/Library/LibraryViewController.swift:290-298 | in select mode only the first selected entry with the row's id leaves; the rest keep their order |
| RecorderLibraryScreen.LibraryViewController.DidTapDeleteSelected | MediaStudio/Feature/Recorder/Library/LibraryViewController.swift:195-209 | nothing changes for an empty selection or a cancelled dialog: not the store, its log or either list. Otherwise the selected records the list holds go to the trash in selection order, with the store replaying those requests, and select mode is left. The list is then the reloaded listing, or unchanged when no selected record was listed |
| RecorderLibraryScreen.LibraryViewController.DidTapMergeSelected | MediaStudio/Feature/Recorder/Library/LibraryViewController.swift:212-233 | refused below two selected; nothing changes for a cancelled dialog or an empty name: not the store, the files or the lists. Otherwise a merge in selection order, saved under the entered name. A thrown merge, duration or save error is reported with its text, and the store is unchanged unless a save was attempted |
| RecorderLibraryScreen.LibraryViewController.PerformMerge | MediaStudio/Feature/Recorder/Library/LibraryViewController.swift:236-255 | the selection is merged in selection order; select mode is left exactly on success. On every path the completion, the store's log and its contents are those of the merge, including a duration error that leaves the store unchanged |
| Trash.AudioOnOneScreen | MediaStudio/Feature/Recorder/Trash/TrashViewModel.swift:24 | no record is both in the trash and on the recordings list, and every audio record is on exactly one of them |
| Trash.TrashViewModel.constructor | MediaStudio/Feature/Recorder/Trash/TrashViewModel.swift:14 | the list starts empty |
| Trash.TrashViewModel.LoadTrashItems | MediaStudio/Feature/Recorder/Trash/TrashViewModel.swift:19-29 | the cleanup is requested first and its failure ignored; then exactly the catalog records in the trash, newest first |
| Trash.TrashViewModel.RestoreItem | MediaStudio/Feature/Recorder/Trash/TrashViewModel.swift:32-38 | a restore request for the shown record, its error ignored, then the cleanup and reload |
| Trash.TrashViewModel.DeletePermanently | MediaStudio/Feature/Recorder/Trash/TrashViewModel.swift:41-47 | a purge request for the shown record, its error ignored, then the cleanup and reload |
| Library.LibraryViewModel.constructor | MediaStudio/Feature/Library/LibraryViewModel.swift:16 | the list starts empty |
| Library.LibraryViewModel.LoadData | MediaStudio/Feature/Library/LibraryViewModel.swift:27-33 | every catalog record, unfiltered, newest first |
| Library.LibraryViewModel.DeleteItem | MediaStudio/Feature/Library/LibraryViewModel.swift:68-80 | needs a documents root; the file is removed and the record deleted, neither failure stopping the other, then a reload |
| Library.LibraryViewModel.RenameItem | MediaStudio/Feature/Library/LibraryViewModel.swift:82-92 | one rename request; a reload exactly when it did not fail |
| Recorder.ToggleTransitions | MediaStudio/Feature/Recorder/RecorderViewModel.swift:35-70 | from idle, recording starts exactly when the microphone is allowed and both setups succeed, otherwise an error; recording stays recording; an error goes to idle |
| Recorder.RecordingFilename | MediaStudio/Feature/Recorder/RecorderViewModel.swift:82-83 | the UUID followed by ".m4a", so its extension is "m4a" |
| Recorder.RecordingItem | MediaStudio/Feature/Recorder/RecorderViewModel.swift:143-153 | an audio record, not favourite, not in the trash, yet with a deletion date, holding the file name and duration |
| Recorder.SavedRecordingListed | MediaStudio/Feature/Recorder/RecorderViewModel.swift:157 | a saved recording appears in the recordings list at its next load |
| Recorder.RecorderViewModel.constructor | MediaStudio/Feature/Recorder/RecorderViewModel.swift:28-33 | idle, no recorder, no timer, duration 0 and an empty file name |
| Recorder.RecorderViewModel.SetState | MediaStudio/Feature/Recorder/RecorderViewModel.swift:28-30 | every state assigned is published to the observer |
| Recorder.RecorderViewModel.ToggleRecording | MediaStudio/Feature/Recorder/RecorderViewModel.swift:35-44 | idle tries to start and publishes the state it reaches; recording stops the recorder and timer without changing or publishing the state; an error goes to idle and publishes it |
| Recorder.RecorderViewModel.CheckPermissionAndStart | MediaStudio/Feature/Recorder/RecorderViewModel.swift:46-70 | granted starts; denied and unknown give an error without touching the recorder; undetermined starts or errs by the answer |
| Recorder.RecorderViewModel.StartRecordingInternal | MediaStudio/Feature/Recorder/RecorderViewModel.swift:72-105 | a session failure gives an error before the file name is chosen; a recorder failure gives an error; success records into the new file with the timer running |
| Recorder.RecorderViewModel.StopRecording | MediaStudio/Feature/Recorder/RecorderViewModel.swift:107-110 | the recorder and timer stop; the state is not changed |
| Recorder.RecorderViewModel.Tick | MediaStudio/Feature/Recorder/RecorderViewModel.swift:116-126 | the duration becomes the recorder's time when a recorder exists, and always while the timer runs |
| Recorder.RecorderViewModel.DidFinishRecording | MediaStudio/Feature/Recorder/RecorderViewModel.swift:169-178 | idle is published first; then the recording is saved on success, or the state becomes an error |
| Recorder.RecorderViewModel.SaveRecordingToDatabase | MediaStudio/Feature/Recorder/RecorderViewModel.swift:142-163 | the recording's record is upserted when the store opens; a failure is only logged |
| Player.Clamp | MediaStudio/Feature/Library/PlayerViewModel.swift:75 | the result lies in `[0, duration]`, equals the time when it is inside, and the nearer bound otherwise |
| Player.ClampIdempotent | MediaStudio/Feature/Library/PlayerViewModel.swift:72-78 | clamping a clamped time changes nothing |
| Player.Trunc | MediaStudio/Feature/Library/PlayerViewModel.swift:117-118 | `Int(x)` truncates toward zero |
| Player.TruncDiv | MediaStudio/Feature/Library/PlayerViewModel.swift:117 | integer division truncates toward zero: the quotient has the dividend's sign and quotient times divisor is the multiple of the divisor nearest zero, within one divisor of the dividend |
| Player.TruncRem | MediaStudio/Feature/Library/PlayerViewModel.swift:118 | the remainder has the dividend's sign, with quotient times divisor plus remainder equal to the dividend |
| Player.Pad2 | MediaStudio/Feature/Library/PlayerViewModel.swift:119 | `%02d`: a number below 100 takes exactly two digits |
| Player.FormatTime | MediaStudio/Feature/Library/PlayerViewModel.swift:116-120 | a time from 0 up to 100 minutes is shown as exactly five characters, `mm:ss` |
| Player.FormatTimeReadsBack | MediaStudio/Feature/Library/PlayerViewModel.swift:116-120 | for a time that is not negative, the text is minutes, ':' and two digits of seconds below 60, and reading it back gives the whole seconds |
| Player.PlayerViewModel.constructor | MediaStudio/Feature/Library/PlayerViewModel.swift:24-44 | a player exists exactly when the file URL resolves and setup does not fail; not playing, at time 0 |
| Player.PlayerViewModel.TogglePlayPause | MediaStudio/Feature/Library/PlayerViewModel.swift:48-60 | with a player, playing flips and the new status is reported; the timer runs exactly while playing |
| Player.PlayerViewModel.SeekTo | MediaStudio/Feature/Library/PlayerViewModel.swift:63-66 | the time is set to the value unclamped, when a player exists |
| Player.PlayerViewModel.SeekBy | MediaStudio/Feature/Library/PlayerViewModel.swift:68-82 | with a player, the time becomes the clamped sum, inside `[0, duration]`, and is reported; without one nothing changes |
| Player.PlayerViewModel.UpdateMetrics | MediaStudio/Feature/Library/PlayerViewModel.swift:108-114 | with a player, the time and its text are reported |
| Player.PlayerViewModel.Duration | MediaStudio/Feature/Library/PlayerViewModel.swift:84-86 | not negative, and 0 without a player |
| Player.PlayerViewModel.DurationString | MediaStudio/Feature/Library/PlayerViewModel.swift:88-90 | "00:00" without a player; otherwise the `mm:ss` text of the player's duration |
| Player.PlayerViewModel.DidFinishPlaying | MediaStudio/Feature/Library/PlayerViewModel.swift:124-131 | the timer stops, stopped is reported, and time 0 is shown as "00:00" |
| TranscriptSearch.GreedyMatches | MediaStudio/Feature/Transcript/TranscriptViewController.swift:157-167 | each range is an occurrence at or after the start, and each ends no later than the next begins |
| TranscriptSearch.GreedyDisjoint | MediaStudio/Feature/Transcript/TranscriptViewController.swift:166 | no two ranges overlap, and they are increasing |
| TranscriptSearch.GreedyLeftmost | MediaStudio/Feature/Transcript/TranscriptViewController.swift:159 | no occurrence starts between one range's search start and the range itself |
| TranscriptSearch.GreedyExhaustive | MediaStudio/Feature/Transcript/TranscriptViewController.swift:159-167 | no occurrence starts after the last range |
| TranscriptSearch.Highlights | MediaStudio/Feature/Transcript/TranscriptViewController.swift:154-160 | every range covers the lowercased pattern in the lowercased text |
| TranscriptSearch.Highlight | MediaStudio/Feature/Transcript/TranscriptViewController.swift:140-170 | the text is unchanged; an empty search highlights nothing; otherwise the greedy matches are highlighted |
| AudioHelper.CreateAudioMix | MediaStudio/Utils/AudioHelper.swift:12-24 | none exactly when the asset has no audio track; otherwise the volume on the first track from time 0; a loading error is thrown |
| AudioHelper.Layout | MediaStudio/Utils/AudioHelper.swift:35-51 | at most one clip per input file; a failure always comes from loading the tracks or the duration of some input |
| AudioHelper.LayoutOffsets | MediaStudio/Utils/AudioHelper.swift:35-51 | each clip is inserted at the sum of the durations of the clips before it |
| AudioHelper.LayoutSources | MediaStudio/Utils/AudioHelper.swift:38-41 | the inserted clips are exactly the inputs with an audio track, in input order |
| AudioHelper.LayoutDurations | MediaStudio/Utils/AudioHelper.swift:44-51 | each inserted clip lasts as long as its input |
| AudioHelper.MergeAudioFiles | MediaStudio/Utils/AudioHelper.swift:27-71 | nil without a composition track or export session; any loading or export error is thrown; otherwise the clips laid end to end, exported to `<name>.m4a` after any old file of that name is removed |
| Videos.VideoFolderURL | MediaStudio/Data/Repository/VideoRepository.swift:18-21 | the `Videos` folder under the documents root |
| Videos.VideoExtensionIgnoresCase | MediaStudio/Data/Repository/VideoRepository.swift:59 | a file `stem.ext` passes the filter exactly when `ext` is "mov" or "mp4" in any letter case |
| Videos.ItemForFields | MediaStudio/Data/Repository/VideoRepository.swift:64-78 | id and name are the file name; a missing duration is 0 and a missing creation date is now |
| Videos.ListedItems | MediaStudio/Data/Repository/VideoRepository.swift:59-80 | every listed item comes from a `.mov` or `.mp4` file of the listing and is named after it |
| Videos.VideoNewestFirstIsTotalPreorder | MediaStudio/Data/Repository/VideoRepository.swift:83 | newest first on `createdAt` is a total preorder |
| Videos.VideoFileName | MediaStudio/Data/Repository/VideoRepository.swift:37-39 | `VIDEO_<stamp>.mov`, with extension "mov" |
| Videos.SavedVideoIsVideoFile | MediaStudio/Data/Repository/VideoRepository.swift:39-59 | a saved video passes the listing's extension filter |
| Videos.VideoRepository.constructor | MediaStudio/Data/Repository/VideoRepository.swift:13-25 | the store over the given files and documents root |
| Videos.VideoRepository.SaveVideo | MediaStudio/Data/Repository/VideoRepository.swift:35-48 | a file at the target name is removed, then the temporary file moves there; this fails exactly when the temporary file is missing; when the temporary file already is the target, removing the old file removes it and the move fails |
| Videos.VideoRepository.FetchAllVideos | MediaStudio/Data/Repository/VideoRepository.swift:51-89 | one item per video file of the listing, newest first; nothing when the folder cannot be listed |
| Videos.VideoRepository.DeleteVideo | MediaStudio/Data/Repository/VideoRepository.swift:111-113 | the file is removed; this fails when it is missing |
| VideoList.VideoListViewModel.constructor | MediaStudio/Feature/Camera/Library/VideoListViewModel.swift:13 | the list starts empty |
| VideoList.VideoListViewModel.LoadVideos | MediaStudio/Feature/Camera/Library/VideoListViewModel.swift:19-28 | the list becomes the store's listing |
| VideoList.VideoListViewModel.DeleteVideo | MediaStudio/Feature/Camera/Library/VideoListViewModel.swift:31-39 | the entry leaves the list, the others in order, exactly when its file was removed; otherwise the list is unchanged |

## Left out

- RecorderLibrary.LibraryViewModel.TrashAndReload: reloads with the corrected load, so `allItems` becomes the reloaded list. The source's `loadData` never assigns `allItems` (see Findings).
- RecorderLibrary.LibraryViewModel.DeleteItem: reloads with the corrected load, so `allItems` becomes the reloaded list (see Findings).
- RecorderLibrary.LibraryViewModel.DeleteAllItem: each reload uses the corrected load, so `allItems` becomes the reloaded list (see Findings).
- RecorderLibrary.LibraryViewModel.TrashEach: each reload uses the corrected load, so `allItems` becomes the reloaded list (see Findings).
- RecorderLibrary.LibraryViewModel.RenameItem: the reload after a successful rename uses the corrected load, so `allItems` becomes the reloaded list (see Findings).
- RecorderLibrary.LibraryViewModel.MergeItems: the reload after a saved merge uses the corrected load, so `allItems` becomes the reloaded list (see Findings).
- `TimeInterval`, `Double`, `Float` and `CMTime` values are exact reals. Floating-point rounding, NaN and infinity are not modelled, and neither is the rounding `CMTimeAdd` can do when the timescales differ.
- `Date` is an integer timestamp; calendars, time zones and sub-second precision are not modelled.
- Videos.VideoRepository.FetchAllVideos: every file without a creation date gets the same `now`. The source calls `Date()` once per file, so their dates, and their order among themselves, may differ slightly. The contract leaves that order open, but does not state it.
- Seqs.Sort and every listing built on it: Swift's sort does not promise a stable order. The contracts state only permutation and order, and nothing about records with equal keys.
- RecorderLibrary.LibraryViewModel.Sort: the names are compared by code point, not by `localizedStandardCompare` (numeric and locale-aware comparison is not modelled).
- RecorderLibrary.LibraryViewModel.Search: case folding is ASCII only, not `localizedCaseInsensitiveContains`.
- TranscriptSearch.Highlight: lowercasing is ASCII only, so text and its lowercased form have the same length. The font and colour attributes are not modelled; only the highlighted ranges are.
- RecorderLibrary.LibraryViewModel.MergeItems: assumes the documents root exists. The source's `compactMap` drops files without a URL, which only matters when there is no root.
- MediaRepositories.MediaRepository.Perform: states no effect of `moveToTrash`, `restoreFromTrash`, `rename`, `deletePermanently`, `cleanupOldTrashItems` or `saveAsNewItem`. Their bodies are not part of this model. Their only assumed property is that objects stay under their own id.
- MediaRepositories.MediaRepository.Save: a Realm write failure is covered only as "the store cannot be opened".
- MediaRepositories.MediaRepository.Delete: a Realm write failure is covered only as "the store cannot be opened".
- Library.LibraryViewModel.DeleteItem: the file system and the store are independent, so the contracts cannot observe that the file is removed before the record. The order is only the order of the statements.
- Player.PlayerViewModel.SeekTo: the conversion from `Float` is not modelled, nor any clamping the platform player applies itself.
- Player.Trunc: `Int(x)` traps for values out of range and for NaN; reals have neither.
- `MediaItemObject`'s defaults for a fresh object (`isFavorite = false`) are not modelled, because `init(from:)` overwrites every field.
- `MediaItem.isFavorite` is mutable in the source. No modelled code changes it, so the record is an immutable value.
- Recorder: the elapsed-time text (`DateComponentsFormatter`), metering and power updates, and the audio session's category and settings are not modelled.
- Recorder: error messages are reasons (`ErrorReason`) instead of the localized texts.
- Recorder: the answer to a permission request is applied at once, not in a later task.
- Player: the platform's advance of the current time during playback is not modelled; the timer's tick is `UpdateMetrics`.
- AudioHelper: the audio data itself, `insertTimeRange` failures, the export file type, and a failure to remove an old output file are not modelled.
- Videos: thumbnails (`generateThumbnail`) are not modelled.
- Videos: creating the `Videos` folder is not modelled, because directories are not modelled.
- Videos: the timestamp's `DateFormatter` is an input, and so is the directory listing. Hidden files are taken to be already skipped.
- Playback in the library view-models (`playItem`, `stopPlaying`, the player delegate) is AVFoundation only and is not modelled.
- The view controllers' layout, alerts, swipe actions and navigation are not modelled, except for the recordings screen's selection list.
- The camera screen, the editor and the visualizer are not modelled.
- Tasks, the main actor and the `onDataLoaded` callbacks are not modelled: every operation is one sequential step.
- The shared singletons (`MediaRepository.shared`, `VideoRepository.shared`) are passed to each view-model explicitly.

## Findings

| source | as written | input that shows it | evidently intended | confidence | as-written member | corrected member |
|---|---|---|---|---|---|---|
| MediaStudio/Feature/Recorder/Library/LibraryViewModel.swift:30 | `loadData` binds the fetched records to a local `allItems` that shadows the field, so the field stays empty and `search` always filters an empty list | store one audio record, load, then search with "" (or any query): the list shown becomes empty | `loadData` also stores the loaded list in the `allItems` field, so searching filters the loaded recordings and an empty query shows them all | not executed | RecorderLibrary.SearchAfterLoadShowsNothing | RecorderLibrary.LibraryViewModel.LoadData |

=== FILE: audio_helper.dfy ===
/**
 * `AudioHelper`: the audio mix for a volume change, and merging clips end
 * to end into one exported file. AVFoundation is replaced by its answers:
 * for each input location, the audio tracks and the duration that loading
 * the asset yields (or the error it throws); whether a composition track
 * and an export session could be created; and the export's error, if any.
 */
module AudioHelper {
  import opened Wrappers
  import opened Seqs
  import opened MediaItems
  import opened FileSystems

  type TrackId = nat

  /** What loading an asset reports: its audio tracks, then its duration. */
  datatype Asset = Asset(audioTracks: Result<seq<TrackId>>, duration: Result<real>)

  datatype InputParameters = InputParameters(track: TrackId, volume: real, at: real)

  datatype AudioMix = AudioMix(inputParameters: seq<InputParameters>)

  /** `createAudioMix`: none when the asset has no audio track, else the volume set on the first track from time zero. */
  function CreateAudioMix(asset: Asset, volume: real): (r: Result<Option<AudioMix>>)
    ensures r.Err? <==> asset.audioTracks.Err?
    ensures r.Ok? ==> (r.value.None? <==> asset.audioTracks.value == [])
    ensures r.Ok? && r.value.Some? ==>
      r.value.value.inputParameters == [InputParameters(asset.audioTracks.value[0], volume, 0.0)]
  {
    match asset.audioTracks
    case Err(m) => Err(m)
    case Ok(tracks) =>
      if tracks == [] then Ok(None)
      else Ok(Some(AudioMix([InputParameters(tracks[0], volume, 0.0)])))
  }

  /** One input's audio placed on the composition track. */
  datatype Segment = Segment(source: Url, track: TrackId, at: real, duration: real)

  /** The environment a merge runs in. */
  datatype AvSession = AvSession(
    assets: Url -> Asset,
    trackCreated: bool,
    exportSessionCreated: bool,
    exportError: Option<string>)

  datatype MergeResult = Threw(message: string) | NoOutput | Exported(url: Url, segments: seq<Segment>)

  predicate HasAudio(asset: Asset)
  {
    asset.audioTracks.Ok? && asset.audioTracks.value != []
  }

  /** The test "this input has an audio track" under the given answers. */
  function HasAudioIn(assets: Url -> Asset): Url -> bool
  {
    (u: Url) => HasAudio(assets(u))
  }

  function Total(segments: seq<Segment>): real
  {
    if segments == [] then 0.0 else Total(segments[..|segments| - 1]) + segments[|segments| - 1].duration
  }

  function Prefixed(segments: seq<Segment>, r: Result<seq<Segment>>): Result<seq<Segment>>
  {
    match r
    case Err(m) => Err(m)
    case Ok(rest) => Ok(segments + rest)
  }

  /**
   * The inputs laid end to end from `start`: an input without an audio
   * track is skipped and does not move the cursor; the first error thrown
   * ends the merge.
   */
  function Layout(urls: seq<Url>, assets: Url -> Asset, start: real): (r: Result<seq<Segment>>)
    ensures r.Ok? ==> |r.value| <= |urls|
    ensures r.Err? ==> exists k :: 0 <= k < |urls| && (assets(urls[k]).audioTracks.Err? || assets(urls[k]).duration.Err?)
  {
    if urls == [] then Ok([])
    else
      var asset := assets(urls[0]);
      match asset.audioTracks
      case Err(m) => Err(m)
      case Ok(tracks) =>
        if tracks == [] then Layout(urls[1..], assets, start)
        else
          match asset.duration
          case Err(m) => Err(m)
          case Ok(d) => Prefixed([Segment(urls[0], tracks[0], start, d)], Layout(urls[1..], assets, start + d))
  }

  lemma {:induction false} TotalCons(x: Segment, s: seq<Segment>)
    ensures Total([x] + s) == x.duration + Total(s)
    decreases |s|
  {
    if s != [] {
      var s' := s[..|s| - 1];
      assert ([x] + s)[..|s|] == [x] + s';
      TotalCons(x, s');
    }
  }

  /** Each segment starts where the previous ones end: offsets are prefix sums of durations. */
  lemma {:induction false} LayoutOffsets(urls: seq<Url>, assets: Url -> Asset, start: real, segments: seq<Segment>)
    requires Layout(urls, assets, start) == Ok(segments)
    ensures forall k :: 0 <= k < |segments| ==> segments[k].at == start + Total(segments[..k])
  {
    if urls != [] {
      var asset := assets(urls[0]);
      var tracks := asset.audioTracks.value;
      if tracks == [] {
        LayoutOffsets(urls[1..], assets, start, segments);
      } else {
        var d := asset.duration.value;
        var rest := Layout(urls[1..], assets, start + d).value;
        assert segments == [Segment(urls[0], tracks[0], start, d)] + rest;
        LayoutOffsets(urls[1..], assets, start + d, rest);
        forall k | 0 <= k < |segments| ensures segments[k].at == start + Total(segments[..k]) {
          if k > 0 {
            assert segments[..k] == [segments[0]] + rest[..k - 1];
            TotalCons(segments[0], rest[..k - 1]);
          }
        }
      }
    }
  }

  function SourceOf(s: Segment): Url
  {
    s.source
  }

  /** The segments come from exactly the inputs that have an audio track, in the given order. */
  lemma {:induction false} LayoutSources(urls: seq<Url>, assets: Url -> Asset, start: real, segments: seq<Segment>)
    requires Layout(urls, assets, start) == Ok(segments)
    ensures Map(segments, SourceOf) == Filter(urls, HasAudioIn(assets))
  {
    var p := HasAudioIn(assets);
    if urls == [] {
      assert segments == [];
    } else {
      var asset := assets(urls[0]);
      var tracks := asset.audioTracks.value;
      FilterCons(urls, p);
      if tracks == [] {
        assert !p(urls[0]);
        LayoutSources(urls[1..], assets, start, segments);
      } else {
        assert p(urls[0]);
        var d := asset.duration.value;
        var rest := Layout(urls[1..], assets, start + d).value;
        assert segments == [Segment(urls[0], tracks[0], start, d)] + rest;
        LayoutSources(urls[1..], assets, start + d, rest);
        assert segments[1..] == rest;
      }
    }
  }

  /** Each segment lasts as long as its input, so the merged length is the sum of the included durations. */
  lemma {:induction false} LayoutDurations(urls: seq<Url>, assets: Url -> Asset, start: real, segments: seq<Segment>)
    requires Layout(urls, assets, start) == Ok(segments)
    ensures forall k :: 0 <= k < |segments| ==>
      HasAudio(assets(segments[k].source)) && assets(segments[k].source).duration == Ok(segments[k].duration)
  {
    if urls != [] {
      var asset := assets(urls[0]);
      var tracks := asset.audioTracks.value;
      if tracks == [] {
        LayoutDurations(urls[1..], assets, start, segments);
      } else {
        var d := asset.duration.value;
        var rest := Layout(urls[1..], assets, start + d).value;
        assert segments == [Segment(urls[0], tracks[0], start, d)] + rest;
        LayoutDurations(urls[1..], assets, start + d, rest);
        assert forall k :: 1 <= k < |segments| ==> segments[k] == rest[k - 1];
      }
    }
  }

  /** The merged file: `<outputName>.m4a` in the documents directory. */
  function MergeOutputURL(documents: Url, outputName: string): Url
  {
    AppendingPathComponent(documents, outputName + ".m4a")
  }

  /** `mergeAudioFiles`. */
  method MergeAudioFiles(fs: FileSystem, documents: Url, audioURLs: seq<Url>, outputName: string, av: AvSession)
    returns (r: MergeResult)
    modifies fs
    ensures !av.trackCreated ==> r == NoOutput && fs.files == old(fs.files)
    ensures av.trackCreated && Layout(audioURLs, av.assets, 0.0).Err? ==>
      r == Threw(Layout(audioURLs, av.assets, 0.0).message) && fs.files == old(fs.files)
    ensures av.trackCreated && Layout(audioURLs, av.assets, 0.0).Ok? ==>
      var output := MergeOutputURL(documents, outputName);
      && fs.files - {output} == old(fs.files) - {output}
      && r == (if !av.exportSessionCreated then NoOutput
               else if av.exportError.Some? then Threw(av.exportError.value)
               else Exported(output, Layout(audioURLs, av.assets, 0.0).value))
      && (output in fs.files <==> r.Exported?)
  {
    if !av.trackCreated {
      return NoOutput;
    }
    var cursor := 0.0;
    var segments: seq<Segment> := [];
    assert audioURLs[0..] == audioURLs;
    assert forall x: seq<Segment> :: [] + x == x;
    for i := 0 to |audioURLs|
      invariant Layout(audioURLs, av.assets, 0.0) == Prefixed(segments, Layout(audioURLs[i..], av.assets, cursor))
    {
      assert audioURLs[i..][1..] == audioURLs[i + 1..];
      var asset := av.assets(audioURLs[i]);
      if asset.audioTracks.Err? {
        return Threw(asset.audioTracks.message);
      }
      var tracks := asset.audioTracks.value;
      if tracks == [] {
        continue;
      }
      if asset.duration.Err? {
        return Threw(asset.duration.message);
      }
      var d := asset.duration.value;
      var segment := Segment(audioURLs[i], tracks[0], cursor, d);
      ghost var later := Layout(audioURLs[i + 1..], av.assets, cursor + d);
      assert later.Ok? ==> (segments + [segment]) + later.value == segments + ([segment] + later.value);
      segments := segments + [segment];
      cursor := cursor + d;
    }
    assert Layout(audioURLs[|audioURLs|..], av.assets, cursor) == Ok([]);
    assert segments + [] == segments;

    var output := MergeOutputURL(documents, outputName);
    if fs.FileExists(output) {
      var _ := fs.RemoveItem(output);
    }
    if !av.exportSessionCreated {
      return NoOutput;
    }
    if av.exportError.Some? {
      return Threw(av.exportError.value);
    }
    fs.Create(output);
    r := Exported(output, segments);
  }
}

=== FILE: file_system.dfy ===
/**
 * The part of `FileManager` the core uses: a set of existing files.
 * Removing a file that does not exist fails, and moving onto an existing
 * destination fails, as `removeItem` and `moveItem` do.
 */
module FileSystems {
  import opened MediaItems

  class FileSystem {
    var files: set<Url>

    constructor (files: set<Url>)
      ensures this.files == files
    {
      this.files := files;
    }

    predicate FileExists(u: Url)
      reads this
    {
      u in files
    }

    method RemoveItem(u: Url) returns (ok: bool)
      modifies this
      ensures ok == (u in old(files))
      ensures files == old(files) - {u}
    {
      ok := u in files;
      files := files - {u};
    }

    method MoveItem(source: Url, destination: Url) returns (ok: bool)
      modifies this
      ensures ok == (source in old(files) && destination !in old(files))
      ensures files == if ok then old(files) - {source} + {destination} else old(files)
    {
      ok := source in files && destination !in files;
      if ok {
        files := files - {source} + {destination};
      }
    }

    /** A file written in full by an export. */
    method Create(u: Url)
      modifies this
      ensures files == old(files) + {u}
    {
      files := files + {u};
    }
  }
}

=== FILE: library_view_model.dfy ===
/**
 * The general library list (`LibraryViewModel` of the library feature):
 * every record, newest first; deleting removes the file and then the
 * record, each failure ignored; rename reloads only on success.
 */
module Library {
  import opened Wrappers
  import opened Seqs
  import opened MediaItems
  import opened MediaRepositories
  import opened FileSystems

  class LibraryViewModel {
    var items: seq<MediaItem>
    const repository: MediaRepository

    ghost predicate Valid()
      reads this, repository
    {
      repository.Valid()
    }

    constructor (repository: MediaRepository)
      requires repository.Valid()
      ensures Valid() && this.repository == repository && items == []
    {
      this.repository := repository;
      items := [];
    }

    /** `loadData`: every fetched record, unfiltered, newest first. */
    method LoadData()
      requires Valid()
      modifies this`items
      ensures Valid()
      ensures Listing(items, repository.table, repository.opens, AnyItem)
    {
      var fetched := repository.FetchAll();
      SortedListing(fetched, repository.table, repository.opens);
      NewestFirstIsTotalPreorder();
      items := Sort(fetched, NewestFirst);
    }

    /**
     * `deleteItem(at:)`: the record's file is removed, then the record is
     * deleted, neither failure stopping the next step, then a reload. The
     * file URL is force-unwrapped, so a documents root must exist.
     */
    method DeleteItem(index: nat, fs: FileSystem, documents: Option<Url>)
      requires Valid() && index < |items| && documents.Some?
      modifies this`items, repository, fs
      ensures Valid()
      ensures fs.files == old(fs.files) - {FullFileURL(documents, old(items)[index].relativePath).value}
      ensures repository.log == old(repository.log)
      ensures repository.table == if repository.opens then Remove(old(repository.table), old(items)[index].id)
                                  else old(repository.table)
      ensures Listing(items, repository.table, repository.opens, AnyItem)
    {
      var item := items[index];
      var _ := fs.RemoveItem(FullFileURL(documents, item.relativePath).value);
      var _ := repository.Delete(item.id);
      LoadData();
    }

    /** `renameItem(index:newName:)`: reloads only when the rename did not throw. */
    method RenameItem(index: nat, newName: string)
      requires Valid() && index < |items|
      modifies this`items, repository
      ensures Valid()
      ensures repository.log == old(repository.log) + [Rename(old(items)[index].id, newName)]
      ensures repository.table == repository.unseen(Rename(old(items)[index].id, newName), old(repository.table)).after
      ensures repository.unseen(Rename(old(items)[index].id, newName), old(repository.table)).error.None? ==>
        Listing(items, repository.table, repository.opens, AnyItem)
      ensures repository.unseen(Rename(old(items)[index].id, newName), old(repository.table)).error.Some? ==>
        items == old(items)
    {
      var error := repository.Perform(Rename(items[index].id, newName));
      if error.None? {
        LoadData();
      }
    }
  }
}

=== FILE: media_item.dfy ===
/**
 * The domain record of the catalog (`MediaItem`), its media type with the
 * raw string values it is persisted under, and file locations.
 *
 * A location is a sequence of path components below some root, so that
 * `appendingPathComponent` and `lastPathComponent` are exact. Dates are
 * abstract integer timestamps; durations are seconds as reals.
 */
module MediaItems {
  import opened Wrappers
  import opened Seqs

  type Date = int

  datatype MediaType = Audio | Video

  /** The raw value a `MediaType` is persisted under. */
  function RawValue(t: MediaType): string
  {
    match t
    case Audio => "audio"
    case Video => "video"
  }

  /** `MediaType(rawValue:)`: only the two raw values decode. */
  function MediaTypeFromRaw(s: string): (r: Option<MediaType>)
    ensures r.Some? <==> s == "audio" || s == "video"
    ensures r.Some? ==> RawValue(r.value) == s
  {
    if s == "audio" then Some(Audio)
    else if s == "video" then Some(Video)
    else None
  }

  /** Decoding a type's raw value gives that type back. */
  lemma RawValueDecodes(t: MediaType)
    ensures MediaTypeFromRaw(RawValue(t)) == Some(t)
  {
  }

  lemma RawValuesDistinct(t: MediaType, u: MediaType)
    ensures RawValue(t) == RawValue(u) <==> t == u
  {
    if RawValue(t) == RawValue(u) {
      assert MediaTypeFromRaw(RawValue(t)) == Some(t);
    }
  }

  datatype Url = Url(components: seq<string>)

  function AppendingPathComponent(u: Url, c: string): (r: Url)
    ensures LastPathComponent(r) == c
    ensures Parent(r) == u
  {
    Url(u.components + [c])
  }

  function LastPathComponent(u: Url): string
  {
    if u.components == [] then "" else u.components[|u.components| - 1]
  }

  function Parent(u: Url): Url
  {
    if u.components == [] then u else Url(u.components[..|u.components| - 1])
  }

  /** `pathExtension`: the text after the last '.', or "" when there is none. */
  function PathExtension(name: string): (r: string)
    ensures '.' !in r
    ensures |r| <= |name|
  {
    if name == [] || name[|name| - 1] == '.' then ""
    else if '.' !in name[..|name| - 1] then ""
    else PathExtension(name[..|name| - 1]) + [name[|name| - 1]]
  }

  lemma {:induction false} PathExtensionOf(stem: string, ext: string)
    requires '.' !in ext
    ensures PathExtension(stem + "." + ext) == ext
    decreases |ext|
  {
    var name := stem + "." + ext;
    if ext == [] {
    } else {
      var shorter := ext[..|ext| - 1];
      assert name[..|name| - 1] == stem + "." + shorter;
      assert name[|name| - 1] == ext[|ext| - 1];
      assert '.' in name[..|name| - 1] by {
        assert (stem + "." + shorter)[|stem|] == '.';
      }
      PathExtensionOf(stem, shorter);
      assert ext == shorter + [ext[|ext| - 1]];
    }
  }

  /** The catalog record. `isDeleted`/`deletedDate` are the trash fields. */
  datatype MediaItem = MediaItem(
    id: string,
    name: string,
    mediaType: MediaType,
    relativePath: string,
    duration: real,
    createdAt: Date,
    isFavorite: bool,
    isDeleted: bool,
    deletedDate: Option<Date>)

  /** `fullFileURL`: the documents root, when there is one, joined with the relative path. */
  function FullFileURL(documents: Option<Url>, relativePath: string): (r: Option<Url>)
    ensures r.Some? <==> documents.Some?
    ensures r.Some? ==> Parent(r.value) == documents.value && LastPathComponent(r.value) == relativePath
  {
    match documents
    case None => None
    case Some(root) => Some(AppendingPathComponent(root, relativePath))
  }

  /** The "newest first" order on `createdAt` used by every catalog listing. */
  predicate NewestFirst(a: MediaItem, b: MediaItem)
  {
    a.createdAt >= b.createdAt
  }

  lemma NewestFirstIsTotalPreorder()
    ensures TotalPreorder(NewestFirst)
  {
  }
}

=== FILE: media_item_object.dfy ===
/**
 * The persisted form of a catalog record (`MediaItemObject`). The media
 * type is stored as its raw string; decoding falls back to audio for any
 * other string. `id` is the primary key, so a stored table is a map from
 * id to object in which every object sits under its own id.
 */
module MediaItemObjects {
  import opened Wrappers
  import opened MediaItems

  datatype MediaItemObject = MediaItemObject(
    id: string,
    name: string,
    typeString: string,
    relativePath: string,
    duration: real,
    createdAt: Date,
    isFavorite: bool,
    isDeleted: bool,
    deletedDate: Option<Date>)

  /** `toDomain()`: an unknown type string decodes to audio. */
  function ToDomain(o: MediaItemObject): (item: MediaItem)
    ensures item.id == o.id && item.name == o.name && item.relativePath == o.relativePath
    ensures item.duration == o.duration && item.createdAt == o.createdAt
    ensures item.isFavorite == o.isFavorite
    ensures item.isDeleted == o.isDeleted && item.deletedDate == o.deletedDate
    ensures item.mediaType == Video <==> o.typeString == "video"
  {
    MediaItem(
      o.id, o.name,
      match MediaTypeFromRaw(o.typeString) case Some(t) => t case None => Audio,
      o.relativePath, o.duration, o.createdAt, o.isFavorite, o.isDeleted, o.deletedDate)
  }

  /** `init(from:)`: field by field, the type as its raw value. */
  function FromDomain(item: MediaItem): (o: MediaItemObject)
    ensures o.typeString == RawValue(item.mediaType)
    ensures ToDomain(o) == item
  {
    RawValueDecodes(item.mediaType);
    MediaItemObject(
      item.id, item.name, RawValue(item.mediaType), item.relativePath,
      item.duration, item.createdAt, item.isFavorite, item.isDeleted, item.deletedDate)
  }

  /** Converting back is exact precisely for objects whose type string is a raw value. */
  lemma ObjectRoundTrip(o: MediaItemObject)
    ensures FromDomain(ToDomain(o)) == o <==> o.typeString == "audio" || o.typeString == "video"
  {
    if o.typeString != "audio" && o.typeString != "video" {
      assert FromDomain(ToDomain(o)).typeString == "audio";
    }
  }

  type Table = map<string, MediaItemObject>

  /** Every stored object sits under its own id (the primary key). */
  ghost predicate PrimaryKeyed(t: Table)
  {
    forall k :: k in t ==> t[k].id == k
  }

  /** No two stored objects share an id. */
  lemma {:induction false} PrimaryKeyUnique(t: Table, k1: string, k2: string)
    requires PrimaryKeyed(t) && k1 in t && k2 in t && k1 != k2
    ensures t[k1].id != t[k2].id
  {
  }
}

=== FILE: media_repository.dfy ===
/**
 * The catalog store (`MediaRepository`): a table of persisted objects keyed
 * by id. `save` is an upsert, `delete` removes one id (and does nothing when
 * it is absent), `fetchAll` lists every record newest first.
 *
 * Whether the database can be opened is the constant `opens`. The
 * repository methods whose bodies are not part of this model (move to and
 * restore from trash, rename, permanent delete, trash cleanup, save as a
 * new item) are requests: each is appended to `log` and its effect on the
 * table is whatever the constant function `unseen` says; nothing else is
 * assumed about them except that the primary key still holds.
 */
module MediaRepositories {
  import opened Wrappers
  import opened Seqs
  import opened MediaItems
  import opened MediaItemObjects

  /** The calls into repository methods whose bodies are not modelled. */
  datatype Request =
    | MoveToTrash(id: string)
    | RestoreFromTrash(id: string)
    | Rename(id: string, newName: string)
    | DeletePermanently(id: string)
    | CleanupOldTrashItems
    | SaveAsNewItem(originalName: string, relativePath: string, duration: real, isTrimmed: bool)

  /** What such a call did: the table afterwards and the error it threw, if any. */
  datatype Outcome = Outcome(after: Table, error: Option<string>)

  ghost predicate KeepsPrimaryKey(unseen: (Request, Table) -> Outcome)
  {
    forall r, t :: PrimaryKeyed(t) ==> PrimaryKeyed(unseen(r, t).after)
  }

  /** The table after a sequence of such calls, one after another. */
  function Replay(unseen: (Request, Table) -> Outcome, rs: seq<Request>, t: Table): Table
  {
    if rs == [] then t else unseen(rs[|rs| - 1], Replay(unseen, rs[..|rs| - 1], t)).after
  }

  /** Every record of the table, as domain values. */
  ghost function Catalog(t: Table): set<MediaItem>
  {
    set k | k in t :: ToDomain(t[k])
  }

  /** In a primary-keyed table a record is determined by its id. */
  lemma CatalogIdsUnique(t: Table, x: MediaItem, y: MediaItem)
    requires PrimaryKeyed(t) && x in Catalog(t) && y in Catalog(t) && x.id == y.id
    ensures x == y
  {
    var kx :| kx in t && ToDomain(t[kx]) == x;
    var ky :| ky in t && ToDomain(t[ky]) == y;
  }

  /**
   * What a screen shows after reloading from the store: when the store opens,
   * every record of the catalog that `keep` selects, once each, newest first;
   * otherwise nothing.
   */
  ghost predicate Listing(items: seq<MediaItem>, t: Table, opens: bool, keep: MediaItem -> bool)
  {
    if opens then ListsExactly(items, set x | x in Catalog(t) && keep(x)) && SortedBy(items, NewestFirst)
    else items == []
  }

  /** Filtering a fetched list and sorting it newest first yields the listing. */
  lemma FilteredListing(fetched: seq<MediaItem>, t: Table, opens: bool, keep: MediaItem -> bool)
    requires opens ==> ListsExactly(fetched, Catalog(t))
    requires !opens ==> fetched == []
    ensures Listing(Sort(Filter(fetched, keep), NewestFirst), t, opens, keep)
  {
    NewestFirstIsTotalPreorder();
    if opens {
      var kept := Filter(fetched, keep);
      FilterCount(fetched, keep);
      var wanted := set x | x in Catalog(t) && keep(x);
      assert forall y :: multiset(kept)[y] == multiset(wanted)[y] by {
        forall y ensures multiset(kept)[y] == multiset(wanted)[y] {
          assert multiset(fetched)[y] == multiset(Catalog(t))[y];
        }
      }
      assert multiset(kept) == multiset(wanted);
    }
  }

  predicate AnyItem(x: MediaItem)
  {
    true
  }

  /** Sorting a fetched list newest first, without filtering, yields the full listing. */
  lemma SortedListing(fetched: seq<MediaItem>, t: Table, opens: bool)
    requires opens ==> ListsExactly(fetched, Catalog(t))
    requires !opens ==> fetched == []
    ensures Listing(Sort(fetched, NewestFirst), t, opens, AnyItem)
  {
    NewestFirstIsTotalPreorder();
    assert (set x | x in Catalog(t) && AnyItem(x)) == Catalog(t);
  }

  /** `realm.add(object, update: .modified)`. */
  function Upsert(t: Table, item: MediaItem): (r: Table)
    ensures item.id in r && ToDomain(r[item.id]) == item
    ensures forall k :: k != item.id ==> (k in r <==> k in t)
    ensures forall k :: k != item.id && k in t ==> r[k] == t[k]
    ensures PrimaryKeyed(t) ==> PrimaryKeyed(r)
  {
    t[item.id := FromDomain(item)]
  }

  /** Deleting by primary key; an absent id leaves the table as it was. */
  function Remove(t: Table, id: string): (r: Table)
    ensures id !in r
    ensures id !in t ==> r == t
    ensures forall k :: k != id ==> (k in r <==> k in t)
    ensures forall k :: k != id && k in t ==> r[k] == t[k]
    ensures PrimaryKeyed(t) ==> PrimaryKeyed(r)
  {
    t - {id}
  }

  /** After a save the catalog is the old one with `item` in place of any record of its id. */
  lemma CatalogAfterUpsert(t: Table, item: MediaItem, x: MediaItem)
    requires PrimaryKeyed(t)
    ensures x in Catalog(Upsert(t, item)) <==> x == item || (x in Catalog(t) && x.id != item.id)
  {
    var r := Upsert(t, item);
    if x in Catalog(r) && x != item {
      var k :| k in r && ToDomain(r[k]) == x;
      assert k != item.id;
      assert k in t && ToDomain(t[k]) == x;
    }
    if x in Catalog(t) && x.id != item.id {
      var k :| k in t && ToDomain(t[k]) == x;
      assert k in r && ToDomain(r[k]) == x;
    }
  }

  /** After a delete the catalog has lost exactly the record of that id. */
  lemma CatalogAfterRemove(t: Table, id: string, x: MediaItem)
    requires PrimaryKeyed(t)
    ensures x in Catalog(Remove(t, id)) <==> x in Catalog(t) && x.id != id
  {
    var r := Remove(t, id);
    if x in Catalog(t) && x.id != id {
      var k :| k in t && ToDomain(t[k]) == x;
      assert k in r && ToDomain(r[k]) == x;
    }
  }

  class MediaRepository {
    const opens: bool
    const unseen: (Request, Table) -> Outcome
    var table: Table
    var log: seq<Request>

    ghost predicate Valid()
      reads this
    {
      PrimaryKeyed(table) && KeepsPrimaryKey(unseen)
    }

    constructor (opens: bool, unseen: (Request, Table) -> Outcome)
      requires KeepsPrimaryKey(unseen)
      ensures Valid()
      ensures this.opens == opens && this.unseen == unseen
      ensures table == map[] && log == []
    {
      this.opens := opens;
      this.unseen := unseen;
      table := map[];
      log := [];
    }

    /** `fetchAll`: every record once, newest first; nothing when the store cannot be opened. */
    method FetchAll() returns (items: seq<MediaItem>)
      requires Valid()
      ensures opens ==> ListsExactly(items, Catalog(table)) && SortedBy(items, NewestFirst)
      ensures !opens ==> items == []
    {
      if !opens {
        return [];
      }
      var found: seq<MediaItem> := [];
      var rest := table.Keys;
      while rest != {}
        invariant rest <= table.Keys
        invariant multiset(found) == multiset(set k | k in table.Keys - rest :: ToDomain(table[k]))
        decreases |rest|
      {
        var k :| k in rest;
        ghost var before := set j | j in table.Keys - rest :: ToDomain(table[j]);
        ghost var after := set j | j in table.Keys - (rest - {k}) :: ToDomain(table[j]);
        assert ToDomain(table[k]) !in before;
        assert after == before + {ToDomain(table[k])};
        found := found + [ToDomain(table[k])];
        rest := rest - {k};
      }
      assert table.Keys - rest == table.Keys;
      NewestFirstIsTotalPreorder();
      items := Sort(found, NewestFirst);
    }

    /** `save(item:)`: an upsert, or a thrown error when the store cannot be opened. */
    method Save(item: MediaItem) returns (ok: bool)
      requires Valid()
      modifies this
      ensures Valid() && log == old(log)
      ensures ok == opens
      ensures table == if opens then Upsert(old(table), item) else old(table)
    {
      if !opens {
        return false;
      }
      table := Upsert(table, item);
      ok := true;
    }

    /** `delete(id:)`: returns quietly when the id is absent. */
    method Delete(id: string) returns (ok: bool)
      requires Valid()
      modifies this
      ensures Valid() && log == old(log)
      ensures ok == opens
      ensures table == if opens then Remove(old(table), id) else old(table)
    {
      if !opens {
        return false;
      }
      if id !in table {
        return true;
      }
      table := Remove(table, id);
      ok := true;
    }

    /** A call into one of the repository methods whose bodies are not modelled. */
    method Perform(r: Request) returns (error: Option<string>)
      requires Valid()
      modifies this
      ensures Valid()
      ensures log == old(log) + [r]
      ensures table == unseen(r, old(table)).after
      ensures error == unseen(r, old(table)).error
    {
      var outcome := unseen(r, table);
      table := outcome.after;
      error := outcome.error;
      log := log + [r];
    }
  }
}

=== FILE: player_view_model.dfy ===
/**
 * The audio player screen (`PlayerViewModel`): play/pause with a refresh
 * timer, seeking to a position or by an offset clamped to the track, the
 * track's duration, and the `mm:ss` text of a time.
 *
 * The player is the record of its existence, current time, duration and
 * playing flag; the two callbacks the screen observes (`onStatusChanged`,
 * `onTimeUpdate`) are the sequences of values they were called with.
 */
module Player {
  import opened Wrappers
  import opened MediaItems

  /** `max(0, min(t, duration))`. */
  function Clamp(t: real, duration: real): (r: real)
    ensures 0.0 <= r
    ensures 0.0 <= duration ==> r <= duration
    ensures 0.0 <= t <= duration ==> r == t
    ensures 0.0 <= duration < t ==> r == duration
    ensures t < 0.0 ==> r == 0.0
  {
    if t < duration then (if t < 0.0 then 0.0 else t)
    else (if duration < 0.0 then 0.0 else duration)
  }

  /** Clamping a clamped time changes nothing. */
  lemma ClampIdempotent(t: real, duration: real)
    requires 0.0 <= duration
    ensures Clamp(Clamp(t, duration), duration) == Clamp(t, duration)
  {
  }

  /** `Int(x)` on a real: truncation toward zero. */
  function Trunc(x: real): (i: int)
    ensures 0.0 <= x ==> i == x.Floor
    ensures 0.0 <= x ==> 0 <= i && i as real <= x < i as real + 1.0
    ensures x < 0.0 ==> i <= 0 && i as real - 1.0 < x <= i as real
  {
    if x >= 0.0 then x.Floor else -((-x).Floor)
  }

  /** Swift's `/` on `Int`: the quotient truncated toward zero. */
  function TruncDiv(a: int, b: int): (q: int)
    requires b > 0
    ensures 0 <= a ==> 0 <= q && q * b <= a < q * b + b
    ensures a < 0 ==> q <= 0 && q * b - b < a <= q * b
  {
    if a >= 0 then a / b else -((-a) / b)
  }

  /** Swift's `%` on `Int`: the remainder takes the sign of the dividend. */
  function TruncRem(a: int, b: int): (r: int)
    requires b > 0
    ensures a == TruncDiv(a, b) * b + r
    ensures 0 <= a ==> 0 <= r < b
    ensures a < 0 ==> -b < r <= 0
  {
    if a >= 0 then a % b else -((-a) % b)
  }

  predicate IsDigit(c: char)
  {
    '0' <= c <= '9'
  }

  function DigitChar(d: nat): (c: char)
    requires d < 10
    ensures IsDigit(c) && (c as int) - ('0' as int) == d
  {
    ('0' as int + d) as char
  }

  /** The decimal digits of `n`, most significant first, with no leading zero. */
  function Decimal(n: nat): (s: string)
    ensures 1 <= |s|
    ensures forall k :: 0 <= k < |s| ==> IsDigit(s[k])
    ensures n < 10 <==> |s| == 1
  {
    if n < 10 then [DigitChar(n)] else Decimal(n / 10) + [DigitChar(n % 10)]
  }

  /** The number a string of decimal digits denotes; the reference for reading a shown time back. */
  function DecimalValue(s: string): nat
    requires forall k :: 0 <= k < |s| ==> IsDigit(s[k])
  {
    if s == [] then 0
    else
      assert IsDigit(s[|s| - 1]);
      DecimalValue(s[..|s| - 1]) * 10 + ((s[|s| - 1] as int) - ('0' as int))
  }

  lemma {:induction false} DecimalRoundTrip(n: nat)
    ensures DecimalValue(Decimal(n)) == n
  {
    if n >= 10 {
      var s := Decimal(n);
      assert s[..|s| - 1] == Decimal(n / 10);
      DecimalRoundTrip(n / 10);
    }
  }

  lemma {:induction false} LeadingZero(s: string)
    requires forall k :: 0 <= k < |s| ==> IsDigit(s[k])
    ensures DecimalValue("0" + s) == DecimalValue(s)
  {
    if s != [] {
      var z := "0" + s;
      assert z[..|z| - 1] == "0" + s[..|s| - 1];
      LeadingZero(s[..|s| - 1]);
    } else {
      assert "0" + s == "0";
      assert "0"[..0] == [];
    }
  }

  /** `%02d`: at least two characters, zero-padded; a negative number keeps its sign. */
  function Pad2(n: int): (s: string)
    ensures 0 <= n < 100 ==> |s| == 2
    ensures 0 <= n ==> (forall k :: 0 <= k < |s| ==> IsDigit(s[k])) && 2 <= |s|
  {
    if n < 0 then "-" + Decimal(-n)
    else if n < 10 then "0" + Decimal(n)
    else Decimal(n)
  }

  lemma Pad2Value(n: nat)
    ensures DecimalValue(Pad2(n)) == n
  {
    DecimalRoundTrip(n);
    if n < 10 {
      LeadingZero(Decimal(n));
    }
  }

  /** `formatTime`: whole minutes and the remaining whole seconds of `time`, as `mm:ss`. */
  function FormatTime(time: real): (s: string)
    ensures 0.0 <= time < 6000.0 ==> |s| == 5 && s[2] == ':'
  {
    var whole := Trunc(time);
    Pad2(TruncDiv(whole, 60)) + ":" + Pad2(TruncRem(whole, 60))
  }

  /**
   * For a time that is not negative, the text is minutes, a colon and two
   * digits of seconds below 60, and reading it back gives the whole seconds
   * of the time.
   */
  lemma FormatTimeReadsBack(time: real)
    requires 0.0 <= time
    ensures var s := FormatTime(time);
      |s| >= 5 && s[|s| - 3] == ':'
      && (forall k :: 0 <= k < |s| && k != |s| - 3 ==> IsDigit(s[k]))
      && DecimalValue(s[..|s| - 3]) * 60 + DecimalValue(s[|s| - 2..]) == time.Floor
      && DecimalValue(s[|s| - 2..]) < 60
  {
    var whole := Trunc(time);
    var m := Pad2(TruncDiv(whole, 60));
    var sec := Pad2(TruncRem(whole, 60));
    var s := FormatTime(time);
    assert s == m + ":" + sec;
    assert s[..|s| - 3] == m;
    assert s[|s| - 2..] == sec;
    Pad2Value(TruncDiv(whole, 60));
    Pad2Value(TruncRem(whole, 60));
  }

  class PlayerViewModel {
    const item: MediaItem
    var hasPlayer: bool
    var currentTime: real
    var playerDuration: real
    var playing: bool
    var timerRunning: bool
    /** The values `onStatusChanged` was called with. */
    var statusEvents: seq<bool>
    /** The values `onTimeUpdate` was called with. */
    var timeUpdates: seq<(real, string)>

    ghost predicate Valid()
      reads this
    {
      (timerRunning <==> playing) && (playing ==> hasPlayer) && 0.0 <= playerDuration
    }

    /**
     * `init(item:)` with `setupPlayer`: a player exists only when the file
     * URL resolves and the session and player set up without error.
     */
    constructor (item: MediaItem, documents: Option<Url>, setupError: Option<string>, fileDuration: real)
      requires 0.0 <= fileDuration
      ensures Valid() && this.item == item
      ensures hasPlayer == (FullFileURL(documents, item.relativePath).Some? && setupError.None?)
      ensures currentTime == 0.0 && playerDuration == fileDuration && !playing
      ensures statusEvents == [] && timeUpdates == []
    {
      this.item := item;
      hasPlayer := FullFileURL(documents, item.relativePath).Some? && setupError.None?;
      currentTime := 0.0;
      playerDuration := fileDuration;
      playing := false;
      timerRunning := false;
      statusEvents := [];
      timeUpdates := [];
    }

    /** `togglePlayPause`: flips playing, runs the timer exactly while playing, reports the new status. */
    method TogglePlayPause()
      requires Valid()
      modifies this
      ensures Valid()
      ensures !old(hasPlayer) ==> playing == old(playing) && statusEvents == old(statusEvents)
      ensures old(hasPlayer) ==> playing == !old(playing) && statusEvents == old(statusEvents) + [playing]
      ensures timerRunning == playing
      ensures hasPlayer == old(hasPlayer) && currentTime == old(currentTime)
      ensures playerDuration == old(playerDuration) && timeUpdates == old(timeUpdates)
    {
      if !hasPlayer {
        return;
      }
      if playing {
        playing := false;
        timerRunning := false;
        statusEvents := statusEvents + [false];
      } else {
        playing := true;
        timerRunning := true;
        statusEvents := statusEvents + [true];
      }
    }

    /** `seek(to:)`: the position is set as given, without clamping. */
    method SeekTo(value: real)
      modifies this`currentTime
      ensures currentTime == if hasPlayer then value else old(currentTime)
    {
      if hasPlayer {
        currentTime := value;
      }
    }

    /** `seek(by:)`: move by an offset, kept within the track, then report the time. */
    method SeekBy(seconds: real)
      requires Valid()
      modifies this`currentTime, this`timeUpdates
      ensures Valid()
      ensures !hasPlayer ==> currentTime == old(currentTime) && timeUpdates == old(timeUpdates)
      ensures hasPlayer ==> currentTime == Clamp(old(currentTime) + seconds, playerDuration)
      ensures hasPlayer ==> 0.0 <= currentTime <= playerDuration
      ensures hasPlayer ==> timeUpdates == old(timeUpdates) + [(currentTime, FormatTime(currentTime))]
    {
      if !hasPlayer {
        return;
      }
      currentTime := Clamp(currentTime + seconds, playerDuration);
      UpdateMetrics();
    }

    /** `updateMetrics`: report the current time and its text. */
    method UpdateMetrics()
      modifies this`timeUpdates
      ensures timeUpdates == if hasPlayer then old(timeUpdates) + [(currentTime, FormatTime(currentTime))]
                             else old(timeUpdates)
    {
      if hasPlayer {
        timeUpdates := timeUpdates + [(currentTime, FormatTime(currentTime))];
      }
    }

    /** `duration`: the track's length, or 0 without a player. */
    function Duration(): (d: real)
      reads this
      requires Valid()
      ensures 0.0 <= d
      ensures !hasPlayer ==> d == 0.0
    {
      if hasPlayer then playerDuration else 0.0
    }

    /** `durationString`. */
    function DurationString(): (s: string)
      reads this
      requires Valid()
      ensures !hasPlayer ==> s == "00:00"
      ensures hasPlayer ==> s == FormatTime(playerDuration)
    {
      FormatTime(Duration())
    }

    /**
     * The finish callback: the timer stops, the screen is told playback
     * stopped and shown time 0 as "00:00". The player itself stopped.
     */
    method DidFinishPlaying()
      requires Valid()
      modifies this`playing, this`timerRunning, this`statusEvents, this`timeUpdates
      ensures Valid()
      ensures !playing && !timerRunning
      ensures statusEvents == old(statusEvents) + [false]
      ensures timeUpdates == old(timeUpdates) + [(0.0, "00:00")]
      ensures timeUpdates[|timeUpdates| - 1].1 == FormatTime(0.0)
    {
      playing := false;
      timerRunning := false;
      statusEvents := statusEvents + [false];
      timeUpdates := timeUpdates + [(0.0, "00:00")];
      assert FormatTime(0.0) == "00" + ":" + "00";
    }
  }
}

=== FILE: recorder_library.dfy ===
/**
 * The recordings list (`LibraryViewModel` of the recorder feature): the
 * audio records that are not in the trash, newest first; search by name;
 * four sort orders; moving one or several records to the trash; rename;
 * and merging a selection into a new recording.
 *
 * Each asynchronous task runs to completion where it is started, and the
 * reload it ends with follows it directly.
 */
module RecorderLibrary {
  import opened Wrappers
  import opened Seqs
  import opened Text
  import opened MediaItems
  import opened MediaItemObjects
  import opened MediaRepositories
  import opened FileSystems
  import opened AudioHelper

  /** Records this screen lists: audio, not in the trash. */
  predicate InLibrary(x: MediaItem)
  {
    x.mediaType == Audio && !x.isDeleted
  }

  /**
   * A stored record shows on this screen exactly when it is not in the
   * trash and its type string is anything but "video": an unknown type
   * string reads back as audio.
   */
  lemma InLibraryStoredAs(o: MediaItemObject)
    ensures InLibrary(ToDomain(o)) <==> o.typeString != "video" && !o.isDeleted
  {
  }

  datatype SortType = Newest | Oldest | NameAZ | NameZA

  predicate OldestFirst(a: MediaItem, b: MediaItem)
  {
    a.createdAt <= b.createdAt
  }

  predicate NameAscending(a: MediaItem, b: MediaItem)
  {
    NameLe(a.name, b.name)
  }

  predicate NameDescending(a: MediaItem, b: MediaItem)
  {
    NameLe(b.name, a.name)
  }

  /** The order each `SortType` sorts by ("a may come before b"). */
  function Order(t: SortType): (MediaItem, MediaItem) -> bool
  {
    match t
    case Newest => NewestFirst
    case Oldest => OldestFirst
    case NameAZ => NameAscending
    case NameZA => NameDescending
  }

  lemma OrderIsTotalPreorder(t: SortType)
    ensures TotalPreorder(Order(t))
  {
    forall a: string, b: string ensures NameLe(a, b) || NameLe(b, a) {
      NameLeTotal(a, b);
    }
    forall a: string, b: string, c: string | NameLe(a, b) && NameLe(b, c) ensures NameLe(a, c) {
      NameLeTransitive(a, b, c);
    }
  }

  /** The search test: the name contains the query, ignoring case. */
  function MatchesQuery(query: string): MediaItem -> bool
  {
    (x: MediaItem) => ContainsIgnoringCase(x.name, query)
  }

  /**
   * A name matches when the lowercased query occurs somewhere in the
   * lowercased name; the case of the query does not matter.
   */
  lemma MatchesQueryMeans(query: string, x: MediaItem)
    ensures MatchesQuery(query)(x) <==> exists i: nat :: OccursAt(Lower(x.name), Lower(query), i)
    ensures MatchesQuery(query)(x) == MatchesQuery(Lower(query))(x)
  {
    assert MatchesQuery(query)(x) == Contains(Lower(x.name), Lower(query));
    ContainsMeansOccurs(Lower(x.name), Lower(query));
    LowerIdempotent(query);
  }

  function HasId(id: string): MediaItem -> bool
  {
    (x: MediaItem) => x.id == id
  }

  ghost predicate Listed(items: seq<MediaItem>, id: string)
  {
    exists k :: 0 <= k < |items| && items[k].id == id
  }

  /**
   * The ids `deleteAllItem` sends to the trash: those entries of `list`,
   * in order, whose id occurs in the current `items`.
   */
  ghost function TrashTargets(list: seq<MediaItem>, items: seq<MediaItem>): seq<string>
  {
    if list == [] then []
    else
      var last := list[|list| - 1];
      TrashTargets(list[..|list| - 1], items) + (if Listed(items, last.id) then [last.id] else [])
  }

  /** An id is targeted exactly when some entry of the list carries it and the current items list it. */
  lemma {:induction false} TrashTargetsExactly(list: seq<MediaItem>, items: seq<MediaItem>, id: string)
    ensures id in TrashTargets(list, items) <==> Listed(items, id) && exists e :: e in list && e.id == id
  {
    if list != [] {
      var init := list[..|list| - 1];
      var last := list[|list| - 1];
      TrashTargetsExactly(init, items, id);
      assert list == init + [last];
      if exists e :: e in list && e.id == id {
        var e :| e in list && e.id == id;
        assert e in init || e == last;
      }
    }
  }

  function TrashRequest(id: string): Request
  {
    MoveToTrash(id)
  }

  /** Where a record's file is, under the documents root. */
  function FileUrlIn(documents: Url): MediaItem -> Url
  {
    (x: MediaItem) => AppendingPathComponent(documents, x.relativePath)
  }

  /** How `mergeItems` ends: its completion is never called, or called with success and message. */
  datatype Completion = NotCalled | Completed(success: bool, message: Option<string>)

  class LibraryViewModel {
    var allItems: seq<MediaItem>
    var items: seq<MediaItem>
    const repository: MediaRepository

    ghost predicate Valid()
      reads this, repository
    {
      repository.Valid()
    }

    constructor (repository: MediaRepository)
      requires repository.Valid()
      ensures Valid() && this.repository == repository
      ensures allItems == [] && items == []
    {
      this.repository := repository;
      allItems := [];
      items := [];
    }

    /**
     * `loadData` as written: the listed records, newest first. The fetched
     * list is bound to a local that shadows the `allItems` field, so the
     * field is left as it was.
     */
    method LoadDataAsWritten()
      requires Valid()
      modifies this`items
      ensures Valid()
      ensures Listing(items, repository.table, repository.opens, InLibrary)
    {
      var fetched := repository.FetchAll();
      FilteredListing(fetched, repository.table, repository.opens, InLibrary);
      items := Seqs.Sort(Filter(fetched, InLibrary), NewestFirst);
    }

    /** `loadData` as evidently intended: the loaded list is also the list `search` works on. */
    method LoadData()
      requires Valid()
      modifies this`items, this`allItems
      ensures Valid()
      ensures Listing(items, repository.table, repository.opens, InLibrary)
      ensures allItems == items
    {
      LoadDataAsWritten();
      allItems := items;
    }

    /** `search(query:)`: an empty query shows `allItems`; otherwise its entries whose name contains the query. */
    method Search(query: string)
      modifies this`items
      ensures query == "" ==> items == allItems
      ensures query != "" ==> items == Filter(allItems, MatchesQuery(query))
      ensures forall x :: x in items <==> x in allItems && (query == "" || ContainsIgnoringCase(x.name, query))
    {
      if query == "" {
        items := allItems;
      } else {
        items := Filter(allItems, MatchesQuery(query));
      }
    }

    /** `sort(by:)`: the same entries, ordered as asked. */
    method Sort(sortType: SortType)
      modifies this`items
      ensures multiset(items) == multiset(old(items))
      ensures SortedBy(items, Order(sortType))
    {
      OrderIsTotalPreorder(sortType);
      items := Seqs.Sort(items, Order(sortType));
    }

    /** The task `deleteItem` starts: move one record to the trash, ignore any error, reload. */
    method TrashAndReload(id: string)
      requires Valid()
      modifies this`items, this`allItems, repository
      ensures Valid()
      ensures repository.log == old(repository.log) + [MoveToTrash(id)]
      ensures repository.table == repository.unseen(MoveToTrash(id), old(repository.table)).after
      ensures Listing(items, repository.table, repository.opens, InLibrary) && allItems == items
    {
      var _ := repository.Perform(MoveToTrash(id));
      LoadData();
    }

    /** `deleteItem(at:)`. */
    method DeleteItem(index: nat)
      requires Valid() && index < |items|
      modifies this`items, this`allItems, repository
      ensures Valid()
      ensures repository.log == old(repository.log) + [MoveToTrash(old(items)[index].id)]
      ensures repository.table == repository.unseen(MoveToTrash(old(items)[index].id), old(repository.table)).after
      ensures Listing(items, repository.table, repository.opens, InLibrary) && allItems == items
    {
      TrashAndReload(items[index].id);
    }

    /**
     * `deleteAllItem(list:)`: the lookups all happen against the current
     * items, then the deletions they start run one after another.
     */
    method DeleteAllItem(list: seq<MediaItem>)
      requires Valid()
      modifies this`items, this`allItems, repository
      ensures Valid()
      ensures repository.log == old(repository.log) + Map(TrashTargets(list, old(items)), TrashRequest)
      ensures repository.table == Replay(repository.unseen, Map(TrashTargets(list, old(items)), TrashRequest), old(repository.table))
      ensures TrashTargets(list, old(items)) == [] ==> items == old(items) && allItems == old(allItems)
      ensures TrashTargets(list, old(items)) != [] ==>
        Listing(items, repository.table, repository.opens, InLibrary) && allItems == items
    {
      var pending := LookUpTargets(list);
      TrashEach(pending);
    }

    /** The lookups of `deleteAllItem`: the ids of the list entries that the current items hold, in list order. */
    method LookUpTargets(list: seq<MediaItem>) returns (pending: seq<string>)
      ensures pending == TrashTargets(list, items)
    {
      pending := [];
      for i := 0 to |list|
        invariant pending == TrashTargets(list[..i], items)
      {
        assert list[..i + 1][..i] == list[..i];
        var index := FirstIndex(items, HasId(list[i].id));
        if index.Some? {
          pending := pending + [items[index.value].id];
        } else {
          assert !Listed(items, list[i].id);
        }
      }
      assert list[..|list|] == list;
    }

    /** The deletions `deleteAllItem` starts, one after another, each with its reload. */
    method TrashEach(pending: seq<string>)
      requires Valid()
      modifies this`items, this`allItems, repository
      ensures Valid()
      ensures repository.log == old(repository.log) + Map(pending, TrashRequest)
      ensures repository.table == Replay(repository.unseen, Map(pending, TrashRequest), old(repository.table))
      ensures pending == [] ==> items == old(items) && allItems == old(allItems)
      ensures pending != [] ==> Listing(items, repository.table, repository.opens, InLibrary) && allItems == items
    {
      for j := 0 to |pending|
        invariant Valid()
        invariant repository.log == old(repository.log) + Map(pending[..j], TrashRequest)
        invariant repository.table == Replay(repository.unseen, Map(pending[..j], TrashRequest), old(repository.table))
        invariant j == 0 ==> items == old(items) && allItems == old(allItems)
        invariant j > 0 ==> Listing(items, repository.table, repository.opens, InLibrary) && allItems == items
      {
        ghost var before := Map(pending[..j], TrashRequest);
        ghost var after := Map(pending[..j + 1], TrashRequest);
        assert after == before + [TrashRequest(pending[j])];
        assert after[..j] == before;
        TrashAndReload(pending[j]);
      }
      assert pending[..|pending|] == pending;
    }

    /** `renameItem(index:newName:)`: reloads only when the rename did not throw. */
    method RenameItem(index: nat, newName: string)
      requires Valid() && index < |items|
      modifies this`items, this`allItems, repository
      ensures Valid()
      ensures repository.log == old(repository.log) + [Rename(old(items)[index].id, newName)]
      ensures repository.table == repository.unseen(Rename(old(items)[index].id, newName), old(repository.table)).after
      ensures repository.unseen(Rename(old(items)[index].id, newName), old(repository.table)).error.None? ==>
        Listing(items, repository.table, repository.opens, InLibrary) && allItems == items
      ensures repository.unseen(Rename(old(items)[index].id, newName), old(repository.table)).error.Some? ==>
        items == old(items) && allItems == old(allItems)
    {
      var error := repository.Perform(Rename(items[index].id, newName));
      if error.None? {
        LoadData();
      }
    }

    /**
     * `mergeItems(selectedItems:outputName:completion:)`: merge the selected
     * files in selection order, read the new file's duration (`durationOf`,
     * which may throw), save it as a new item and reload; any error is
     * reported through the completion, and a merge that produced no file
     * calls no completion.
     */
    method MergeItems(selected: seq<MediaItem>, outputName: string, documents: Url, fs: FileSystem,
                      av: AvSession, durationOf: Url -> Result<real>)
      returns (merged: MergeResult, completion: Completion)
      requires Valid()
      modifies this`items, this`allItems, repository, fs
      ensures Valid()
      ensures merged.Exported? ==>
        merged.url == MergeOutputURL(documents, outputName)
        && Map(merged.segments, SourceOf) == Filter(Map(selected, FileUrlIn(documents)), HasAudioIn(av.assets))
      ensures completion == NotCalled <==> merged.NoOutput?
      ensures merged.Threw? ==> completion == Completed(false, Some(merged.message))
      ensures !merged.Exported? ==>
        repository.log == old(repository.log) && items == old(items) && allItems == old(allItems)
      ensures merged.Exported? && durationOf(merged.url).Err? ==>
        completion == Completed(false, Some(durationOf(merged.url).message)) && repository.log == old(repository.log)
      ensures completion == Completed(true, None) <==>
        merged.Exported? && durationOf(merged.url).Ok? &&
        repository.unseen(SaveAsNewItem(outputName, outputName + ".m4a", durationOf(merged.url).value, false),
                          old(repository.table)).error.None?
      ensures completion == Completed(true, None) ==>
        repository.log == old(repository.log) + [SaveAsNewItem(outputName, outputName + ".m4a", durationOf(merged.url).value, false)]
        && Listing(items, repository.table, repository.opens, InLibrary) && allItems == items
      ensures !merged.Exported? || durationOf(merged.url).Err? ==> repository.table == old(repository.table)
      ensures merged.Exported? && durationOf(merged.url).Ok? ==>
        var save := SaveAsNewItem(outputName, outputName + ".m4a", durationOf(merged.url).value, false);
        repository.log == old(repository.log) + [save]
        && repository.table == repository.unseen(save, old(repository.table)).after
        && (repository.unseen(save, old(repository.table)).error.Some? ==>
              completion == Completed(false, repository.unseen(save, old(repository.table)).error)
              && items == old(items) && allItems == old(allItems))
    {
      var urls := Map(selected, FileUrlIn(documents));
      merged := MergeAudioFiles(fs, documents, urls, outputName, av);
      match merged
      case NoOutput =>
        completion := NotCalled;
      case Threw(message) =>
        completion := Completed(false, Some(message));
      case Exported(url, segments) =>
        LayoutSources(urls, av.assets, 0.0, segments);
        var duration := durationOf(url);
        if duration.Err? {
          completion := Completed(false, Some(duration.message));
          return;
        }
        var error := repository.Perform(SaveAsNewItem(outputName, LastPathComponent(url), duration.value, false));
        if error.Some? {
          completion := Completed(false, error);
          return;
        }
        LoadData();
        completion := Completed(true, None);
    }
  }

  /**
   * As written, a search after a load shows nothing: one recording is
   * loaded and listed, yet searching with an empty query clears the list,
   * because `allItems` is never filled.
   */
  method SearchAfterLoadShowsNothing() returns (loaded: seq<MediaItem>, shown: seq<MediaItem>)
    ensures |loaded| == 1 && shown == []
  {
    var memo := MediaItem("memo", "Memo", Audio, "memo.m4a", 1.0, 0, false, false, None);
    var repository := new MediaRepository(true, (r: Request, t: Table) => Outcome(t, None));
    var _ := repository.Save(memo);
    var viewModel := new LibraryViewModel(repository);
    viewModel.LoadDataAsWritten();
    loaded := viewModel.items;
    OneRecordListed(repository.table, memo, loaded);
    viewModel.Search("");
    shown := viewModel.items;
  }

  /** With the corrected load, an empty search shows the loaded recordings again. */
  method SearchAfterCorrectedLoadShowsAll() returns (loaded: seq<MediaItem>, shown: seq<MediaItem>)
    ensures |loaded| == 1 && shown == loaded
  {
    var memo := MediaItem("memo", "Memo", Audio, "memo.m4a", 1.0, 0, false, false, None);
    var repository := new MediaRepository(true, (r: Request, t: Table) => Outcome(t, None));
    var _ := repository.Save(memo);
    var viewModel := new LibraryViewModel(repository);
    viewModel.LoadData();
    loaded := viewModel.items;
    OneRecordListed(repository.table, memo, loaded);
    viewModel.Search("");
    shown := viewModel.items;
  }

  lemma OneRecordListed(t: Table, memo: MediaItem, listed: seq<MediaItem>)
    requires t == Upsert(map[], memo) && InLibrary(memo)
    requires Listing(listed, t, true, InLibrary)
    ensures |listed| == 1
  {
    forall x ensures x in Catalog(t) <==> x == memo {
      CatalogAfterUpsert(map[], memo, x);
    }
    assert (set x | x in Catalog(t) && InLibrary(x)) == {memo};
    assert multiset(listed) == multiset{memo};
    assert |multiset(listed)| == 1;
  }
}

=== FILE: recorder_view_model.dfy ===
/**
 * The recorder screen (`RecorderViewModel`): a three-state machine (idle,
 * recording, error) driven by the microphone permission, by session and
 * recorder setup, and by the recorder's finish callback; a finished
 * recording is saved to the catalog as a new audio record.
 *
 * Everything the platform decides is an input: the permission, the answer
 * to a permission request, setup errors, the recorder's elapsed time, the
 * fresh UUID, the clock and the formatted date.
 */
module Recorder {
  import opened Wrappers
  import opened Seqs
  import opened MediaItems
  import opened MediaItemObjects
  import opened MediaRepositories
  import opened RecorderLibrary

  /** Why the recorder is in its error state; each is shown as its own message. */
  datatype ErrorReason =
    | MicrophoneDenied            // permission denied in Settings
    | MicrophoneRefused           // the permission request was answered no
    | PermissionUnknown           // a permission value the switch does not know
    | SessionFailed(detail: string)
    | RecorderFailed(detail: string)
    | RecordingFailed             // the recorder finished unsuccessfully

  datatype RecorderState = Idle | Recording | Error(reason: ErrorReason)

  datatype Permission = Granted | Denied | Undetermined | Unknown

  /** What starting a recorder leads to, given the two setup steps' errors. */
  function AfterStart(sessionError: Option<string>, recorderError: Option<string>): RecorderState
  {
    if sessionError.Some? then Error(SessionFailed(sessionError.value))
    else if recorderError.Some? then Error(RecorderFailed(recorderError.value))
    else Recording
  }

  /** What a start request leads to, given the permission and, when undetermined, the user's answer. */
  function AfterPermission(permission: Permission, answer: bool,
                           sessionError: Option<string>, recorderError: Option<string>): RecorderState
  {
    match permission
    case Granted => AfterStart(sessionError, recorderError)
    case Denied => Error(MicrophoneDenied)
    case Undetermined => if answer then AfterStart(sessionError, recorderError) else Error(MicrophoneRefused)
    case Unknown => Error(PermissionUnknown)
  }

  /** The state the record button leads to; stopping leaves the state to the finish callback. */
  function AfterToggle(state: RecorderState, permission: Permission, answer: bool,
                       sessionError: Option<string>, recorderError: Option<string>): RecorderState
  {
    match state
    case Idle => AfterPermission(permission, answer, sessionError, recorderError)
    case Recording => Recording
    case Error(_) => Idle
  }

  /** Whether a start request reaches the recorder at all. */
  predicate Allowed(permission: Permission, answer: bool)
  {
    permission == Granted || (permission == Undetermined && answer)
  }

  /**
   * The button starts a recording exactly from idle, with the microphone
   * allowed and both setup steps succeeding; it never leaves the recording
   * state; and from an error it always returns to idle.
   */
  lemma ToggleTransitions(state: RecorderState, permission: Permission, answer: bool,
                          sessionError: Option<string>, recorderError: Option<string>)
    ensures state.Idle? ==>
      (AfterToggle(state, permission, answer, sessionError, recorderError) == Recording <==>
       Allowed(permission, answer) && sessionError.None? && recorderError.None?)
    ensures state.Idle? && !Allowed(permission, answer) ==>
      AfterToggle(state, permission, answer, sessionError, recorderError).Error?
    ensures state.Recording? ==> AfterToggle(state, permission, answer, sessionError, recorderError) == Recording
    ensures state.Error? ==> AfterToggle(state, permission, answer, sessionError, recorderError) == Idle
  {
  }

  /** The file a recording is written to: a fresh UUID with the `m4a` extension. */
  function RecordingFilename(uuid: string): (filename: string)
    ensures PathExtension(filename) == "m4a"
    ensures |filename| == |uuid| + 4
  {
    PathExtensionOf(uuid, "m4a");
    assert uuid + "." + "m4a" == uuid + ".m4a";
    uuid + ".m4a"
  }

  /** The record saved for a finished recording. */
  function RecordingItem(id: string, stamp: string, filename: string, duration: real, now: Date): (item: MediaItem)
    ensures item.id == id && item.relativePath == filename && item.duration == duration && item.createdAt == now
    ensures item.mediaType == Audio && !item.isFavorite && !item.isDeleted
    ensures item.deletedDate == Some(now)
    ensures InLibrary(item)
  {
    MediaItem(id, "Audio " + stamp, Audio, filename, duration, now, false, false, Some(now))
  }

  /** A saved recording is shown in the recordings list after its next load. */
  lemma SavedRecordingListed(t: Table, item: MediaItem, items: seq<MediaItem>)
    requires PrimaryKeyed(t) && InLibrary(item)
    requires Listing(items, Upsert(t, item), true, InLibrary)
    ensures item in items
  {
    CatalogAfterUpsert(t, item, item);
    assert item in (set x | x in Catalog(Upsert(t, item)) && InLibrary(x));
    assert multiset(items)[item] == 1;
  }

  class RecorderViewModel {
    var currentState: RecorderState
    /** Every state assigned, in order: what `onStateChanged` observes. */
    var published: seq<RecorderState>
    var currentDuration: real
    var currentFilename: string
    /** The file the current recorder writes to, once a recorder exists. */
    var recorder: Option<Url>
    var capturing: bool
    var timerRunning: bool
    const repository: MediaRepository

    ghost predicate Valid()
      reads this, repository
    {
      repository.Valid()
      && (currentState == Recording ==> recorder.Some?)
      && (timerRunning ==> recorder.Some?)
    }

    constructor (repository: MediaRepository)
      requires repository.Valid()
      ensures Valid() && this.repository == repository
      ensures currentState == Idle && published == []
      ensures currentDuration == 0.0 && currentFilename == ""
      ensures recorder == None && !capturing && !timerRunning
    {
      this.repository := repository;
      currentState := Idle;
      published := [];
      currentDuration := 0.0;
      currentFilename := "";
      recorder := None;
      capturing := false;
      timerRunning := false;
    }

    method SetState(s: RecorderState)
      modifies this`currentState, this`published
      ensures currentState == s && published == old(published) + [s]
    {
      currentState := s;
      published := published + [s];
    }

    /** The record button. */
    method ToggleRecording(permission: Permission, answer: bool, sessionError: Option<string>,
                           recorderError: Option<string>, uuid: string, documents: Url)
      requires Valid()
      modifies this
      ensures Valid()
      ensures currentState == AfterToggle(old(currentState), permission, answer, sessionError, recorderError)
      ensures old(currentState).Recording? ==>
        !timerRunning && !capturing && published == old(published) && recorder == old(recorder)
      ensures old(currentState).Error? ==> published == old(published) + [Idle]
      ensures old(currentState).Idle? ==> published == old(published) + [currentState]
      ensures currentState == Recording && !old(currentState).Recording? ==>
        currentFilename == RecordingFilename(uuid) && timerRunning && capturing
        && recorder == Some(AppendingPathComponent(documents, RecordingFilename(uuid)))
      ensures currentDuration == old(currentDuration)
    {
      match currentState
      case Idle =>
        CheckPermissionAndStart(permission, answer, sessionError, recorderError, uuid, documents);
      case Recording =>
        StopRecording();
      case Error(_) =>
        SetState(Idle);
    }

    /** `checkPermissionAndStart`; a requested permission's answer is applied at once. */
    method CheckPermissionAndStart(permission: Permission, answer: bool, sessionError: Option<string>,
                                   recorderError: Option<string>, uuid: string, documents: Url)
      requires Valid()
      modifies this
      ensures Valid()
      ensures currentState == AfterPermission(permission, answer, sessionError, recorderError)
      ensures published == old(published) + [currentState]
      ensures !Allowed(permission, answer) ==>
        recorder == old(recorder) && capturing == old(capturing) && timerRunning == old(timerRunning)
        && currentFilename == old(currentFilename)
      ensures Allowed(permission, answer) && currentState == Recording ==>
        currentFilename == RecordingFilename(uuid) && timerRunning && capturing
        && recorder == Some(AppendingPathComponent(documents, RecordingFilename(uuid)))
      ensures currentDuration == old(currentDuration)
    {
      match permission
      case Granted =>
        StartRecordingInternal(sessionError, recorderError, uuid, documents);
      case Denied =>
        SetState(Error(MicrophoneDenied));
      case Undetermined =>
        if answer {
          StartRecordingInternal(sessionError, recorderError, uuid, documents);
        } else {
          SetState(Error(MicrophoneRefused));
        }
      case Unknown =>
        SetState(Error(PermissionUnknown));
    }

    /**
     * `startRecordingInternal`: a session failure stops before anything
     * else; otherwise the file name is chosen, and a recorder failure leaves
     * the previous recorder in place.
     */
    method StartRecordingInternal(sessionError: Option<string>, recorderError: Option<string>,
                                  uuid: string, documents: Url)
      requires Valid()
      modifies this
      ensures Valid()
      ensures currentState == AfterStart(sessionError, recorderError)
      ensures published == old(published) + [currentState]
      ensures currentFilename == if sessionError.Some? then old(currentFilename) else RecordingFilename(uuid)
      ensures currentState == Recording ==>
        recorder == Some(AppendingPathComponent(documents, currentFilename)) && capturing && timerRunning
      ensures currentState != Recording ==>
        recorder == old(recorder) && capturing == old(capturing) && timerRunning == old(timerRunning)
      ensures currentDuration == old(currentDuration)
    {
      if sessionError.Some? {
        SetState(Error(SessionFailed(sessionError.value)));
        return;
      }
      var filename := RecordingFilename(uuid);
      currentFilename := filename;
      var audioURL := AppendingPathComponent(documents, filename);
      if recorderError.Some? {
        SetState(Error(RecorderFailed(recorderError.value)));
        return;
      }
      recorder := Some(audioURL);
      capturing := true;
      SetState(Recording);
      timerRunning := true;
    }

    /** `stopRecording`: stops the recorder and the timer; the state waits for the finish callback. */
    method StopRecording()
      requires Valid()
      modifies this`capturing, this`timerRunning
      ensures Valid()
      ensures !capturing && !timerRunning
    {
      capturing := false;
      timerRunning := false;
    }

    /** A timer tick: the elapsed time is copied from the recorder, if there is one. */
    method Tick(recorderTime: real)
      requires Valid()
      modifies this`currentDuration
      ensures Valid()
      ensures timerRunning ==> currentDuration == recorderTime
      ensures currentDuration == if recorder.Some? then recorderTime else old(currentDuration)
    {
      if recorder.None? {
        return;
      }
      currentDuration := recorderTime;
    }

    /**
     * The recorder's finish callback: back to idle, then either the
     * recording is saved under a fresh id, or the state becomes an error.
     */
    method DidFinishRecording(successfully: bool, id: string, stamp: string, now: Date)
      requires Valid()
      modifies this`currentState, this`published, repository
      ensures Valid()
      ensures successfully ==> currentState == Idle && published == old(published) + [Idle]
      ensures !successfully ==>
        currentState == Error(RecordingFailed) && published == old(published) + [Idle, Error(RecordingFailed)]
      ensures repository.log == old(repository.log)
      ensures repository.table ==
        if successfully && repository.opens
        then Upsert(old(repository.table), RecordingItem(id, stamp, currentFilename, currentDuration, now))
        else old(repository.table)
    {
      SetState(Idle);
      if successfully {
        SaveRecordingToDatabase(id, stamp, now);
      } else {
        SetState(Error(RecordingFailed));
      }
    }

    /** `saveRecordingToDatabase`: a save error is only logged. */
    method SaveRecordingToDatabase(id: string, stamp: string, now: Date)
      requires repository.Valid()
      modifies repository
      ensures repository.Valid() && repository.log == old(repository.log)
      ensures repository.table ==
        if repository.opens
        then Upsert(old(repository.table), RecordingItem(id, stamp, currentFilename, currentDuration, now))
        else old(repository.table)
    {
      var _ := repository.Save(RecordingItem(id, stamp, currentFilename, currentDuration, now));
    }
  }
}

=== FILE: selection_list.dfy ===
/**
 * The selection list of the recordings screen (`LibraryViewController` of
 * the recorder feature): in select mode, tapped rows are collected in the
 * order they were tapped; that order is the order of a merge. Deleting or
 * merging the selection is guarded by the selection's size.
 *
 * The user's answers to the confirmation dialogs are inputs.
 */
module RecorderLibraryScreen {
  import opened Wrappers
  import opened Seqs
  import opened MediaItems
  import opened MediaRepositories
  import opened FileSystems
  import opened AudioHelper
  import opened RecorderLibrary

  /** How a tap on Merge ends. */
  datatype MergeDialog =
    | TooFewSelected                     // the warning is shown instead
    | Cancelled
    | EmptyName
    | Merged(merged: MergeResult, completion: Completion)

  class LibraryViewController {
    var editing: bool
    var selectedItemsOrdered: seq<MediaItem>
    /** The record a row tap outside select mode opened in the player. */
    var playing: Option<MediaItem>
    const viewModel: LibraryViewModel

    ghost predicate Valid()
      reads this, viewModel, viewModel.repository
    {
      viewModel.Valid()
    }

    constructor (viewModel: LibraryViewModel)
      requires viewModel.Valid()
      ensures Valid() && this.viewModel == viewModel
      ensures !editing && selectedItemsOrdered == [] && playing == None
    {
      this.viewModel := viewModel;
      editing := false;
      selectedItemsOrdered := [];
      playing := None;
    }

    /** `didTapSelectButton`: enter or leave select mode, with an empty selection either way. */
    method DidTapSelectButton()
      modifies this`editing, this`selectedItemsOrdered
      ensures editing == !old(editing)
      ensures selectedItemsOrdered == []
    {
      editing := !editing;
      selectedItemsOrdered := [];
    }

    /** `tableView(_:didSelectRowAt:)`: in select mode the row's record joins the end of the selection. */
    method DidSelectRow(row: nat)
      requires row < |viewModel.items|
      modifies this`selectedItemsOrdered, this`playing
      ensures editing ==> selectedItemsOrdered == old(selectedItemsOrdered) + [viewModel.items[row]]
      ensures editing ==> playing == old(playing)
      ensures !editing ==> selectedItemsOrdered == old(selectedItemsOrdered)
      ensures !editing ==> playing == Some(viewModel.items[row])
    {
      var item := viewModel.items[row];
      if editing {
        selectedItemsOrdered := selectedItemsOrdered + [item];
      } else {
        playing := Some(item);
      }
    }

    /**
     * `tableView(_:didDeselectRowAt:)`: in select mode the first selected
     * entry with the row's id leaves the selection; the others keep their
     * order.
     */
    method DidDeselectRow(row: nat)
      requires row < |viewModel.items|
      modifies this`selectedItemsOrdered
      ensures var id := viewModel.items[row].id;
        var found := FirstIndex(old(selectedItemsOrdered), HasId(id));
        if editing && found.Some?
        then selectedItemsOrdered == old(selectedItemsOrdered)[..found.value] + old(selectedItemsOrdered)[found.value + 1..]
        else selectedItemsOrdered == old(selectedItemsOrdered)
    {
      if !editing {
        return;
      }
      var item := viewModel.items[row];
      var index := FirstIndex(selectedItemsOrdered, HasId(item.id));
      if index.Some? {
        selectedItemsOrdered := RemoveAt(selectedItemsOrdered, index.value);
        assert selectedItemsOrdered == old(selectedItemsOrdered)[..index.value] + old(selectedItemsOrdered)[index.value + 1..];
      }
    }

    /**
     * `didTapDeleteSelected`: nothing when the selection is empty;
     * otherwise, once confirmed, the selection goes to the trash and select
     * mode is left.
     */
    method DidTapDeleteSelected(confirmed: bool)
      requires Valid()
      modifies this`editing, this`selectedItemsOrdered, viewModel`items, viewModel`allItems, viewModel.repository
      ensures Valid()
      ensures old(selectedItemsOrdered) == [] || !confirmed ==>
        editing == old(editing) && selectedItemsOrdered == old(selectedItemsOrdered)
        && viewModel.repository.log == old(viewModel.repository.log)
        && viewModel.repository.table == old(viewModel.repository.table)
        && viewModel.items == old(viewModel.items) && viewModel.allItems == old(viewModel.allItems)
      ensures old(selectedItemsOrdered) != [] && confirmed ==>
        editing == !old(editing) && selectedItemsOrdered == []
        && viewModel.repository.log ==
           old(viewModel.repository.log) + Map(TrashTargets(old(selectedItemsOrdered), old(viewModel.items)), TrashRequest)
        && viewModel.repository.table ==
           Replay(viewModel.repository.unseen, Map(TrashTargets(old(selectedItemsOrdered), old(viewModel.items)), TrashRequest),
                  old(viewModel.repository.table))
      ensures old(selectedItemsOrdered) != [] && confirmed && TrashTargets(old(selectedItemsOrdered), old(viewModel.items)) == [] ==>
        viewModel.items == old(viewModel.items) && viewModel.allItems == old(viewModel.allItems)
      ensures old(selectedItemsOrdered) != [] && confirmed && TrashTargets(old(selectedItemsOrdered), old(viewModel.items)) != [] ==>
        Listing(viewModel.items, viewModel.repository.table, viewModel.repository.opens, InLibrary)
        && viewModel.allItems == viewModel.items
    {
      if selectedItemsOrdered == [] {
        return;
      }
      if !confirmed {
        return;
      }
      viewModel.DeleteAllItem(selectedItemsOrdered);
      DidTapSelectButton();
    }

    /**
     * `didTapMergeSelected`: fewer than two selected records are refused
     * with a warning; the dialog's name must not be empty.
     */
    method DidTapMergeSelected(answer: Option<string>, documents: Url, fs: FileSystem,
                               av: AvSession, durationOf: Url -> Result<real>)
      returns (dialog: MergeDialog)
      requires Valid()
      modifies this`editing, this`selectedItemsOrdered, viewModel`items, viewModel`allItems, viewModel.repository, fs
      ensures Valid()
      ensures dialog == TooFewSelected <==> |old(selectedItemsOrdered)| < 2
      ensures |old(selectedItemsOrdered)| >= 2 ==>
        (dialog == Cancelled <==> answer.None?) && (dialog == EmptyName <==> answer == Some(""))
      ensures !dialog.Merged? ==>
        editing == old(editing) && selectedItemsOrdered == old(selectedItemsOrdered)
        && viewModel.repository.log == old(viewModel.repository.log)
        && viewModel.repository.table == old(viewModel.repository.table)
        && fs.files == old(fs.files)
        && viewModel.items == old(viewModel.items) && viewModel.allItems == old(viewModel.allItems)
      ensures dialog.Merged? && (!dialog.merged.Exported? || durationOf(dialog.merged.url).Err?) ==>
        viewModel.repository.log == old(viewModel.repository.log)
        && viewModel.repository.table == old(viewModel.repository.table)
      ensures dialog.Merged? && dialog.merged.Threw? ==> dialog.completion == Completed(false, Some(dialog.merged.message))
      ensures dialog.Merged? && dialog.merged.Exported? && durationOf(dialog.merged.url).Err? ==>
        dialog.completion == Completed(false, Some(durationOf(dialog.merged.url).message))
      ensures dialog.Merged? && dialog.merged.Exported? && durationOf(dialog.merged.url).Ok? ==>
        var save := SaveAsNewItem(answer.value, answer.value + ".m4a", durationOf(dialog.merged.url).value, false);
        var outcome := viewModel.repository.unseen(save, old(viewModel.repository.table));
        viewModel.repository.log == old(viewModel.repository.log) + [save]
        && viewModel.repository.table == outcome.after
        && (outcome.error.Some? ==> dialog.completion == Completed(false, outcome.error))
      ensures dialog.Merged? ==> answer.Some? && answer.value != "" && |old(selectedItemsOrdered)| >= 2
      ensures dialog.Merged? && dialog.merged.Exported? ==>
        Map(dialog.merged.segments, SourceOf) ==
          Filter(Map(old(selectedItemsOrdered), FileUrlIn(documents)), HasAudioIn(av.assets))
      ensures dialog.Merged? ==>
        if dialog.completion.Completed? && dialog.completion.success
        then editing == !old(editing) && selectedItemsOrdered == []
        else editing == old(editing) && selectedItemsOrdered == old(selectedItemsOrdered)
    {
      if |selectedItemsOrdered| < 2 {
        return TooFewSelected;
      }
      if answer.None? {
        return Cancelled;
      }
      if answer.value == "" {
        return EmptyName;
      }
      var merged, completion := PerformMerge(answer.value, documents, fs, av, durationOf);
      dialog := Merged(merged, completion);
    }

    /** `performMerge(outputName:)`: the selection is merged in selection order; success leaves select mode. */
    method PerformMerge(outputName: string, documents: Url, fs: FileSystem,
                        av: AvSession, durationOf: Url -> Result<real>)
      returns (merged: MergeResult, completion: Completion)
      requires Valid()
      modifies this`editing, this`selectedItemsOrdered, viewModel`items, viewModel`allItems, viewModel.repository, fs
      ensures Valid()
      ensures merged.Exported? ==>
        Map(merged.segments, SourceOf) ==
          Filter(Map(old(selectedItemsOrdered), FileUrlIn(documents)), HasAudioIn(av.assets))
      ensures !merged.Exported? || durationOf(merged.url).Err? ==>
        viewModel.repository.log == old(viewModel.repository.log)
        && viewModel.repository.table == old(viewModel.repository.table)
      ensures !merged.Exported? ==> viewModel.items == old(viewModel.items) && viewModel.allItems == old(viewModel.allItems)
      ensures merged.Exported? && durationOf(merged.url).Err? ==>
        completion == Completed(false, Some(durationOf(merged.url).message))
      ensures completion == NotCalled <==> merged.NoOutput?
      ensures merged.Threw? ==> completion == Completed(false, Some(merged.message))
      ensures merged.Exported? && durationOf(merged.url).Ok? ==>
        var save := SaveAsNewItem(outputName, outputName + ".m4a", durationOf(merged.url).value, false);
        var outcome := viewModel.repository.unseen(save, old(viewModel.repository.table));
        viewModel.repository.log == old(viewModel.repository.log) + [save]
        && viewModel.repository.table == outcome.after
        && (completion == Completed(true, None) <==> outcome.error.None?)
        && (outcome.error.Some? ==> completion == Completed(false, outcome.error))
      ensures if completion.Completed? && completion.success
        then editing == !old(editing) && selectedItemsOrdered == []
        else editing == old(editing) && selectedItemsOrdered == old(selectedItemsOrdered)
    {
      merged, completion := viewModel.MergeItems(selectedItemsOrdered, outputName, documents, fs, av, durationOf);
      if completion.Completed? && completion.success {
        DidTapSelectButton();
      }
    }
  }
}

=== FILE: seqs.dfy ===
/**
 * Sequence helpers shared by the projections of the catalog: filtering,
 * sorting by a caller-supplied order, searching for the first matching
 * element and removing one element by index. They stand for the Swift
 * standard library's `filter`, `sorted`/`sort`, `firstIndex(where:)`,
 * `map` and `remove(at:)`.
 */
module Seqs {
  import opened Wrappers

  /** `le(a, b)` means "a may come before b": total and transitive. */
  ghost predicate TotalPreorder<T(!new)>(le: (T, T) -> bool)
  {
    && (forall a, b :: le(a, b) || le(b, a))
    && (forall a, b, c :: le(a, b) && le(b, c) ==> le(a, c))
  }

  ghost predicate SortedBy<T>(s: seq<T>, le: (T, T) -> bool)
  {
    forall i, j :: 0 <= i < j < |s| ==> le(s[i], s[j])
  }

  /** A list that holds every element of a set exactly once. */
  ghost predicate ListsExactly<T>(s: seq<T>, elements: set<T>)
  {
    multiset(s) == multiset(elements)
  }

  /** The elements of `s` that satisfy `p`, in their original order. */
  function Filter<T(!new)>(s: seq<T>, p: T -> bool): (r: seq<T>)
    ensures |r| <= |s|
    ensures forall x :: x in r <==> x in s && p(x)
  {
    if s == [] then [] else (if p(s[0]) then [s[0]] else []) + Filter(s[1..], p)
  }

  /** Filtering keeps every occurrence of a kept element, and no other. */
  lemma {:induction false} FilterCount<T(!new)>(s: seq<T>, p: T -> bool)
    ensures forall x :: multiset(Filter(s, p))[x] == if p(x) then multiset(s)[x] else 0
  {
    if s != [] {
      assert s == [s[0]] + s[1..];
      FilterCount(s[1..], p);
    }
  }

  /** Filtering distributes over concatenation, so it keeps relative order. */
  lemma {:induction false} FilterAppend<T(!new)>(a: seq<T>, b: seq<T>, p: T -> bool)
    ensures Filter(a + b, p) == Filter(a, p) + Filter(b, p)
  {
    if a == [] {
      assert a + b == b;
    } else {
      assert (a + b)[1..] == a[1..] + b;
      FilterAppend(a[1..], b, p);
    }
  }

  lemma FilterCons<T(!new)>(s: seq<T>, p: T -> bool)
    requires s != []
    ensures Filter(s, p) == (if p(s[0]) then [s[0]] else []) + Filter(s[1..], p)
  {
  }

  function Map<T, U>(s: seq<T>, f: T -> U): (r: seq<U>)
    ensures |r| == |s|
    ensures forall i :: 0 <= i < |s| ==> r[i] == f(s[i])
  {
    if s == [] then [] else [f(s[0])] + Map(s[1..], f)
  }

  /** Inserts `x` before the first element it may precede. */
  function Insert<T>(x: T, s: seq<T>, le: (T, T) -> bool): (r: seq<T>)
    ensures multiset(r) == multiset(s) + multiset{x}
  {
    if s == [] then [x]
    else if le(x, s[0]) then [x] + s
    else
      assert s == [s[0]] + s[1..];
      [s[0]] + Insert(x, s[1..], le)
  }

  lemma {:induction false} InsertSorted<T(!new)>(x: T, s: seq<T>, le: (T, T) -> bool)
    requires TotalPreorder(le) && SortedBy(s, le)
    ensures SortedBy(Insert(x, s, le), le)
  {
    if s != [] && !le(x, s[0]) {
      InsertSorted(x, s[1..], le);
      var r := Insert(x, s, le);
      var tail := Insert(x, s[1..], le);
      assert r == [s[0]] + tail;
      forall j | 0 <= j < |tail| ensures le(s[0], tail[j]) {
        assert tail[j] in multiset(tail);
        assert tail[j] == x || tail[j] in multiset(s[1..]);
        if tail[j] != x {
          var k :| 0 <= k < |s[1..]| && s[1..][k] == tail[j];
          assert s[k + 1] == tail[j];
        }
      }
    }
  }

  /** Sorting: a permutation of `s` ordered by `le` (insertion sort). */
  function Sort<T(!new)>(s: seq<T>, le: (T, T) -> bool): (r: seq<T>)
    requires TotalPreorder(le)
    ensures multiset(r) == multiset(s)
    ensures SortedBy(r, le)
  {
    if s == [] then []
    else
      assert s == [s[0]] + s[1..];
      var rest := Sort(s[1..], le);
      InsertSorted(s[0], rest, le);
      Insert(s[0], rest, le)
  }

  /** Index of the first element satisfying `p`, as `firstIndex(where:)`. */
  function FirstIndex<T>(s: seq<T>, p: T -> bool): (r: Option<nat>)
    ensures r.Some? ==> r.value < |s| && p(s[r.value])
    ensures r.Some? ==> forall k :: 0 <= k < r.value ==> !p(s[k])
    ensures r.None? <==> forall k :: 0 <= k < |s| ==> !p(s[k])
  {
    if s == [] then None
    else if p(s[0]) then Some(0)
    else
      match FirstIndex(s[1..], p)
      case None => None
      case Some(i) => Some(i + 1)
  }

  /** `remove(at:)`: drops the element at `i`, keeping the others in order. */
  function RemoveAt<T>(s: seq<T>, i: nat): (r: seq<T>)
    requires i < |s|
    ensures |r| == |s| - 1
    ensures forall k :: 0 <= k < i ==> r[k] == s[k]
    ensures forall k :: i <= k < |r| ==> r[k] == s[k + 1]
    ensures multiset(r) + multiset{s[i]} == multiset(s)
  {
    assert s == s[..i] + [s[i]] + s[i + 1..];
    s[..i] + s[i + 1..]
  }
}

=== FILE: text.dfy ===
/**
 * String helpers standing for Foundation's `lowercased()`,
 * `range(of:options:range:)`, `localizedCaseInsensitiveContains` and
 * `localizedStandardCompare`. Case folding is ASCII only and names are
 * ordered by code point, lexicographically.
 */
module Text {
  import opened Wrappers

  function LowerChar(c: char): (r: char)
    ensures !('A' <= r <= 'Z')
    ensures !('A' <= c <= 'Z') ==> r == c
  {
    if 'A' <= c <= 'Z' then (c as int + 32) as char else c
  }

  function Lower(s: string): (r: string)
    ensures |r| == |s|
    ensures forall i :: 0 <= i < |s| ==> r[i] == LowerChar(s[i])
  {
    if s == [] then [] else [LowerChar(s[0])] + Lower(s[1..])
  }

  lemma {:induction false} LowerIdempotent(s: string)
    ensures Lower(Lower(s)) == Lower(s)
  {
    var once := Lower(s);
    var twice := Lower(once);
    assert forall i :: 0 <= i < |s| ==> twice[i] == once[i];
  }

  /** `pat` occurs in `text` starting at index `i`. */
  predicate OccursAt(text: string, pat: string, i: nat)
  {
    i + |pat| <= |text| && text[i..i + |pat|] == pat
  }

  /** The leftmost occurrence of `pat` in `text` at or after `from`. */
  function FindFrom(text: string, pat: string, from: nat): (r: Option<nat>)
    requires from <= |text|
    ensures r.Some? ==> from <= r.value && OccursAt(text, pat, r.value)
    ensures r.Some? ==> forall j :: from <= j < r.value ==> !OccursAt(text, pat, j)
    ensures r.None? ==> forall j :: from <= j ==> !OccursAt(text, pat, j)
    decreases |text| - from
  {
    if OccursAt(text, pat, from) then Some(from)
    else if from + |pat| >= |text| then None
    else FindFrom(text, pat, from + 1)
  }

  predicate Contains(text: string, pat: string)
  {
    FindFrom(text, pat, 0).Some?
  }

  lemma ContainsMeansOccurs(text: string, pat: string)
    ensures Contains(text, pat) <==> exists i: nat :: OccursAt(text, pat, i)
  {
    if Contains(text, pat) {
      var i := FindFrom(text, pat, 0).value;
      assert OccursAt(text, pat, i);
    }
  }

  /** Case-insensitive substring test used by the library search. */
  predicate ContainsIgnoringCase(text: string, pat: string)
  {
    Contains(Lower(text), Lower(pat))
  }

  /** Lexicographic "a sorts no later than b", by code point. */
  predicate NameLe(a: string, b: string)
  {
    if a == [] then true
    else if b == [] then false
    else if a[0] != b[0] then a[0] < b[0]
    else NameLe(a[1..], b[1..])
  }

  lemma {:induction false} NameLeTotal(a: string, b: string)
    ensures NameLe(a, b) || NameLe(b, a)
  {
    if a != [] && b != [] && a[0] == b[0] {
      NameLeTotal(a[1..], b[1..]);
    }
  }

  lemma {:induction false} NameLeTransitive(a: string, b: string, c: string)
    requires NameLe(a, b) && NameLe(b, c)
    ensures NameLe(a, c)
  {
    if a != [] && b != [] && c != [] && a[0] == b[0] && b[0] == c[0] {
      NameLeTransitive(a[1..], b[1..], c[1..]);
    }
  }

  lemma {:induction false} NameLeAntisymmetric(a: string, b: string)
    requires NameLe(a, b) && NameLe(b, a)
    ensures a == b
  {
    if a != [] && b != [] {
      NameLeAntisymmetric(a[1..], b[1..]);
      assert a == [a[0]] + a[1..] && b == [b[0]] + b[1..];
    }
  }
}

=== FILE: transcript_search.dfy ===
/**
 * The highlight loop of the transcript screen's search bar: every match of
 * the search text in the transcript, found left to right, each search
 * resuming where the previous match ended, both sides lowercased.
 */
module TranscriptSearch {
  import opened Wrappers
  import opened Text

  /** A half-open range `[start, end)` of character positions. */
  datatype Range = Range(start: nat, end: nat)

  /** The text view's content: the transcript and the ranges shown highlighted. */
  datatype Shown = Shown(text: string, highlights: seq<Range>)

  /**
   * The greedy left-to-right matches of `pat` in `text` from `from`: each
   * is the leftmost occurrence at or after the end of the previous one.
   */
  function GreedyMatches(text: string, pat: string, from: nat): (r: seq<Range>)
    requires pat != [] && from <= |text|
    ensures forall j :: 0 <= j < |r| ==>
      from <= r[j].start && r[j].end == r[j].start + |pat| && OccursAt(text, pat, r[j].start)
    ensures forall j :: 0 < j < |r| ==> r[j - 1].end <= r[j].start
    decreases |text| - from
  {
    match FindFrom(text, pat, from)
    case None => []
    case Some(i) =>
      var rest := GreedyMatches(text, pat, i + |pat|);
      [Range(i, i + |pat|)] + rest
  }

  /** Highlighted ranges never overlap and come in increasing order. */
  lemma {:induction false} GreedyDisjoint(text: string, pat: string, from: nat)
    requires pat != [] && from <= |text|
    ensures var r := GreedyMatches(text, pat, from);
      forall i, j :: 0 <= i < j < |r| ==> r[i].end <= r[j].start
    decreases |text| - from
  {
    var r := GreedyMatches(text, pat, from);
    if r != [] {
      var i := FindFrom(text, pat, from).value;
      GreedyDisjoint(text, pat, i + |pat|);
      assert r[1..] == GreedyMatches(text, pat, i + |pat|);
    }
  }

  /** `pat` occurs nowhere in `text` starting in `[lo, hi)`. */
  predicate NoneBetween(text: string, pat: string, lo: nat, hi: nat)
  {
    forall k :: lo <= k < hi ==> !OccursAt(text, pat, k)
  }

  /** Where the search for the `j`-th match of `r` began. */
  function SearchStart(r: seq<Range>, from: nat, j: nat): nat
    requires j <= |r|
  {
    if j == 0 then from else r[j - 1].end
  }

  /** No occurrence is skipped before the `j`-th match: each match is the leftmost one remaining. */
  lemma {:induction false} GreedyLeftmost(text: string, pat: string, from: nat, j: nat)
    requires pat != [] && from <= |text|
    requires j < |GreedyMatches(text, pat, from)|
    ensures var r := GreedyMatches(text, pat, from);
      NoneBetween(text, pat, SearchStart(r, from, j), r[j].start)
    decreases |text| - from
  {
    var r := GreedyMatches(text, pat, from);
    var i := FindFrom(text, pat, from).value;
    var rest := GreedyMatches(text, pat, i + |pat|);
    assert r == [Range(i, i + |pat|)] + rest;
    if j > 0 {
      GreedyLeftmost(text, pat, i + |pat|, j - 1);
      assert r[j] == rest[j - 1];
      if j > 1 {
        assert r[j - 1] == rest[j - 2];
      }
      assert SearchStart(r, from, j) == SearchStart(rest, i + |pat|, j - 1);
    }
  }

  /** After the last match the text holds no further occurrence. */
  lemma {:induction false} GreedyExhaustive(text: string, pat: string, from: nat)
    requires pat != [] && from <= |text|
    ensures var r := GreedyMatches(text, pat, from);
      forall k :: SearchStart(r, from, |r|) <= k ==> !OccursAt(text, pat, k)
    decreases |text| - from
  {
    var r := GreedyMatches(text, pat, from);
    if r != [] {
      var i := FindFrom(text, pat, from).value;
      var rest := GreedyMatches(text, pat, i + |pat|);
      GreedyExhaustive(text, pat, i + |pat|);
      assert r == [Range(i, i + |pat|)] + rest;
      assert SearchStart(r, from, |r|) == SearchStart(rest, i + |pat|, |rest|);
    }
  }

  /** Matches are found on the lowercased texts. */
  function Highlights(fullText: string, searchText: string): (r: seq<Range>)
    requires searchText != []
    ensures forall j :: 0 <= j < |r| ==>
      r[j].start <= r[j].end <= |fullText| && Lower(fullText)[r[j].start..r[j].end] == Lower(searchText)
  {
    GreedyMatches(Lower(fullText), Lower(searchText), 0)
  }

  /** `searchBar(_:textDidChange:)`: the text view's new content. */
  method Highlight(fullText: string, searchText: string) returns (shown: Shown)
    ensures shown.text == fullText
    ensures searchText == [] ==> shown.highlights == []
    ensures searchText != [] ==> shown.highlights == Highlights(fullText, searchText)
  {
    if searchText == [] {
      return Shown(fullText, []);
    }
    var pattern := Lower(searchText);
    var baseString := Lower(fullText);
    var ranges: seq<Range> := [];
    var cursor: nat := 0;
    var found := FindFrom(baseString, pattern, cursor);
    while found.Some?
      invariant cursor <= |baseString|
      invariant found == FindFrom(baseString, pattern, cursor)
      invariant GreedyMatches(baseString, pattern, 0) == ranges + GreedyMatches(baseString, pattern, cursor)
      decreases |baseString| - cursor
    {
      var range := Range(found.value, found.value + |pattern|);
      assert GreedyMatches(baseString, pattern, cursor) == [range] + GreedyMatches(baseString, pattern, range.end);
      ranges := ranges + [range];
      cursor := range.end;
      found := FindFrom(baseString, pattern, cursor);
    }
    shown := Shown(fullText, ranges);
  }
}

=== FILE: trash_view_model.dfy ===
/**
 * The trash list (`TrashViewModel`): the records marked deleted, newest
 * first, loaded after an attempt to purge old trash; restoring or purging
 * one record and reloading.
 */
module Trash {
  import opened Wrappers
  import opened Seqs
  import opened MediaItems
  import opened MediaRepositories
  import RecorderLibrary

  /** Records this screen lists: those in the trash, of either type. */
  predicate InTrash(x: MediaItem)
  {
    x.isDeleted
  }

  /** Every audio record is on exactly one of the two screens: the recordings list or the trash. */
  lemma AudioOnOneScreen(x: MediaItem)
    ensures x.mediaType == Audio ==> (InTrash(x) <==> !RecorderLibrary.InLibrary(x))
    ensures !(InTrash(x) && RecorderLibrary.InLibrary(x))
  {
  }

  class TrashViewModel {
    var items: seq<MediaItem>
    const repository: MediaRepository

    ghost predicate Valid()
      reads this, repository
    {
      repository.Valid()
    }

    constructor (repository: MediaRepository)
      requires repository.Valid()
      ensures Valid() && this.repository == repository && items == []
    {
      this.repository := repository;
      items := [];
    }

    /**
     * `loadTrashItems`: the cleanup is requested first and its error
     * ignored; then the fetched records in the trash, sorted in place
     * newest first.
     */
    method LoadTrashItems()
      requires Valid()
      modifies this`items, repository
      ensures Valid()
      ensures repository.log == old(repository.log) + [CleanupOldTrashItems]
      ensures repository.table == repository.unseen(CleanupOldTrashItems, old(repository.table)).after
      ensures Listing(items, repository.table, repository.opens, InTrash)
    {
      var _ := repository.Perform(CleanupOldTrashItems);
      var fetched := repository.FetchAll();
      FilteredListing(fetched, repository.table, repository.opens, InTrash);
      items := Filter(fetched, InTrash);
      NewestFirstIsTotalPreorder();
      items := Sort(items, NewestFirst);
    }

    /** `restoreItem(at:)`: restore the record shown at `index`, ignore any error, reload. */
    method RestoreItem(index: nat)
      requires Valid() && index < |items|
      modifies this`items, repository
      ensures Valid()
      ensures repository.log == old(repository.log) + [RestoreFromTrash(old(items)[index].id), CleanupOldTrashItems]
      ensures repository.table == repository.unseen(CleanupOldTrashItems,
        repository.unseen(RestoreFromTrash(old(items)[index].id), old(repository.table)).after).after
      ensures Listing(items, repository.table, repository.opens, InTrash)
    {
      var id := items[index].id;
      var _ := repository.Perform(RestoreFromTrash(id));
      LoadTrashItems();
    }

    /** `deletePermanently(at:)`: purge the record shown at `index`, ignore any error, reload. */
    method DeletePermanently(index: nat)
      requires Valid() && index < |items|
      modifies this`items, repository
      ensures Valid()
      ensures repository.log == old(repository.log) + [Request.DeletePermanently(old(items)[index].id), CleanupOldTrashItems]
      ensures repository.table == repository.unseen(CleanupOldTrashItems,
        repository.unseen(Request.DeletePermanently(old(items)[index].id), old(repository.table)).after).after
      ensures Listing(items, repository.table, repository.opens, InTrash)
    {
      var id := items[index].id;
      var _ := repository.Perform(Request.DeletePermanently(id));
      LoadTrashItems();
    }
  }
}

=== FILE: video_list_view_model.dfy ===
/**
 * The video list (`VideoListViewModel`): the store's listing, and deleting
 * one video, which drops it from the list only when its file was removed.
 */
module VideoList {
  import opened Wrappers
  import opened Seqs
  import opened MediaItems
  import opened FileSystems
  import opened Videos

  class VideoListViewModel {
    var videos: seq<VideoItem>
    const repository: VideoRepository

    constructor (repository: VideoRepository)
      ensures this.repository == repository && videos == []
    {
      this.repository := repository;
      videos := [];
    }

    /** `loadVideos`: the list becomes the store's listing. */
    method LoadVideos(listing: Option<seq<Url>>, durationOf: Url -> Option<real>,
                      creationDateOf: Url -> Option<Date>, now: Date)
      modifies this`videos
      ensures listing.None? ==> videos == []
      ensures listing.Some? ==>
        multiset(videos) == multiset(Map(Filter(listing.value, IsVideoFile), ItemFor(durationOf, creationDateOf, now)))
      ensures SortedBy(videos, VideoNewestFirst)
    {
      videos := repository.FetchAllVideos(listing, durationOf, creationDateOf, now);
    }

    /** `deleteVideo(at:)`: on success the entry leaves the list, the others keeping their order. */
    method DeleteVideo(index: nat) returns (ok: bool)
      requires index < |videos|
      modifies this`videos, repository.fs
      ensures ok == (old(videos)[index].fileURL in old(repository.fs.files))
      ensures repository.fs.files == old(repository.fs.files) - {old(videos)[index].fileURL}
      ensures ok ==> videos == old(videos)[..index] + old(videos)[index + 1..]
      ensures !ok ==> videos == old(videos)
    {
      ok := repository.DeleteVideo(videos[index]);
      if ok {
        videos := RemoveAt(videos, index);
        assert videos == old(videos)[..index] + old(videos)[index + 1..];
      }
    }
  }
}

=== FILE: video_repository.dfy ===
/**
 * The video store (`VideoRepository`): video files kept under
 * `Documents/Videos`, listed newest first; a recorded video is moved in
 * from its temporary location under a timestamped name.
 *
 * The directory listing, each file's duration and creation date, the
 * clock and the formatted timestamp are inputs.
 */
module Videos {
  import opened Wrappers
  import opened Seqs
  import opened Text
  import opened MediaItems
  import opened FileSystems

  datatype VideoItem = VideoItem(id: string, name: string, fileURL: Url, createdAt: Date, duration: real)

  /** `videoFolderURL`: the `Videos` folder under the documents root. */
  function VideoFolderURL(documents: Url): (u: Url)
    ensures Parent(u) == documents && LastPathComponent(u) == "Videos"
  {
    AppendingPathComponent(documents, "Videos")
  }

  /** The listing keeps `.mov` and `.mp4` files, whatever the extension's case. */
  predicate IsVideoFile(u: Url)
  {
    var ext := Lower(PathExtension(LastPathComponent(u)));
    ext == "mov" || ext == "mp4"
  }

  /** A file named `stem.ext` is listed exactly when `ext` is "mov" or "mp4" in any letter case. */
  lemma VideoExtensionIgnoresCase(folder: Url, stem: string, ext: string)
    requires '.' !in ext
    ensures IsVideoFile(AppendingPathComponent(folder, stem + "." + ext)) <==> Lower(ext) == "mov" || Lower(ext) == "mp4"
  {
    PathExtensionOf(stem, ext);
  }

  /** The item listed for a video file; a missing duration is 0 and a missing creation date is now. */
  function ItemFor(durationOf: Url -> Option<real>, creationDateOf: Url -> Option<Date>, now: Date): Url -> VideoItem
  {
    (u: Url) =>
      VideoItem(LastPathComponent(u), LastPathComponent(u), u,
                if creationDateOf(u).Some? then creationDateOf(u).value else now,
                if durationOf(u).Some? then durationOf(u).value else 0.0)
  }

  lemma ItemForFields(durationOf: Url -> Option<real>, creationDateOf: Url -> Option<Date>, now: Date, u: Url)
    ensures var v := ItemFor(durationOf, creationDateOf, now)(u);
      v.id == LastPathComponent(u) && v.name == v.id && v.fileURL == u
      && (creationDateOf(u).None? ==> v.createdAt == now)
      && (durationOf(u).None? ==> v.duration == 0.0)
  {
  }

  /** Every item listed for a listing comes from one of its video files, named after it. */
  lemma ListedItems(files: seq<Url>, durationOf: Url -> Option<real>, creationDateOf: Url -> Option<Date>, now: Date)
    ensures forall v :: v in Map(Filter(files, IsVideoFile), ItemFor(durationOf, creationDateOf, now)) ==>
      IsVideoFile(v.fileURL) && v.fileURL in files && v.id == LastPathComponent(v.fileURL) && v.name == v.id
  {
    var videoFiles := Filter(files, IsVideoFile);
    var items := Map(videoFiles, ItemFor(durationOf, creationDateOf, now));
    forall v | v in items
      ensures IsVideoFile(v.fileURL) && v.fileURL in files && v.id == LastPathComponent(v.fileURL) && v.name == v.id
    {
      var k :| 0 <= k < |items| && items[k] == v;
      assert videoFiles[k] in videoFiles;
    }
  }

  predicate VideoNewestFirst(a: VideoItem, b: VideoItem)
  {
    a.createdAt >= b.createdAt
  }

  lemma VideoNewestFirstIsTotalPreorder()
    ensures TotalPreorder(VideoNewestFirst)
  {
  }

  /** The file name a video saved with the formatted timestamp `stamp` gets. */
  function VideoFileName(stamp: string): (name: string)
    ensures PathExtension(name) == "mov"
  {
    PathExtensionOf("VIDEO_" + stamp, "mov");
    assert "VIDEO_" + stamp + "." + "mov" == "VIDEO_" + stamp + ".mov";
    "VIDEO_" + stamp + ".mov"
  }

  /** A saved video is of a kind the listing keeps. */
  lemma SavedVideoIsVideoFile(documents: Url, stamp: string)
    ensures IsVideoFile(AppendingPathComponent(VideoFolderURL(documents), VideoFileName(stamp)))
  {
    assert Lower("mov") == "mov";
  }

  class VideoRepository {
    const fs: FileSystem
    const documents: Url

    constructor (fs: FileSystem, documents: Url)
      ensures this.fs == fs && this.documents == documents
    {
      this.fs := fs;
      this.documents := documents;
    }

    /**
     * `saveVideo(from:)`: a file already at the target name is removed, then
     * the temporary file is moved there; the move fails when the temporary
     * file is missing.
     */
    method SaveVideo(tempURL: Url, stamp: string) returns (ok: bool)
      modifies fs
      ensures var target := AppendingPathComponent(VideoFolderURL(documents), VideoFileName(stamp));
        ok == (tempURL in old(fs.files) && tempURL != target)
        && fs.files == if ok then old(fs.files) - {tempURL} + {target} else old(fs.files) - {target}
    {
      var destination := AppendingPathComponent(VideoFolderURL(documents), VideoFileName(stamp));
      if fs.FileExists(destination) {
        var _ := fs.RemoveItem(destination);
      }
      ok := fs.MoveItem(tempURL, destination);
    }

    /**
     * `fetchAllVideos`: one item per video file of the listing, newest
     * first; nothing when the folder cannot be listed.
     */
    method FetchAllVideos(listing: Option<seq<Url>>, durationOf: Url -> Option<real>,
                          creationDateOf: Url -> Option<Date>, now: Date)
      returns (videos: seq<VideoItem>)
      ensures listing.None? ==> videos == []
      ensures listing.Some? ==>
        multiset(videos) == multiset(Map(Filter(listing.value, IsVideoFile), ItemFor(durationOf, creationDateOf, now)))
      ensures SortedBy(videos, VideoNewestFirst)
      ensures forall v :: v in videos ==>
        IsVideoFile(v.fileURL) && v.fileURL in listing.value && v.id == LastPathComponent(v.fileURL) && v.name == v.id
    {
      if listing.None? {
        return [];
      }
      var videoFiles := Filter(listing.value, IsVideoFile);
      var item := ItemFor(durationOf, creationDateOf, now);
      var found: seq<VideoItem> := [];
      for i := 0 to |videoFiles|
        invariant found == Map(videoFiles[..i], item)
      {
        assert videoFiles[..i + 1] == videoFiles[..i] + [videoFiles[i]];
        found := found + [item(videoFiles[i])];
      }
      assert videoFiles[..|videoFiles|] == videoFiles;
      VideoNewestFirstIsTotalPreorder();
      videos := Sort(found, VideoNewestFirst);
      ListedItems(listing.value, durationOf, creationDateOf, now);
      assert forall v :: v in videos ==> v in multiset(found);
    }

    /** `deleteVideo(item:)`: removing the file fails when it is missing. */
    method DeleteVideo(item: VideoItem) returns (ok: bool)
      modifies fs
      ensures ok == (item.fileURL in old(fs.files))
      ensures fs.files == old(fs.files) - {item.fileURL}
    {
      ok := fs.RemoveItem(item.fileURL);
    }
  }
}

=== FILE: wrappers.dfy ===
/** Optional values and thrown errors, for the source's optionals and `throws`. */
module Wrappers {

  datatype Option<+T> = None | Some(value: T)

  /** A value, or the description of the error thrown instead. */
  datatype Result<+T> = Ok(value: T) | Err(message: string)
}
